=== FILE: README.md ===
# LifeStream vitals dashboard, modelled in Dafny

LifeStream is a browser-only patient-vitals dashboard. All of its data is
generated on timers from random numbers. This project models the logic behind
its screens and proves properties about it:

- **Patient classifier** (`AlertUtils`, `PatientTypes`). SpO2 and heart rate
  fall into nested threshold bands, giving critical, warning or normal.
  `detectAnomalies` emits at most one alert per vital, and `isAnomalous` is
  the "not normal" test.
- **Single-patient monitor page** (`MonitorPage`, `AlertsPanel`).
  - A jittered vital generator clamped to safety bands.
  - 20-sample trend buffers.
  - An alert reducer keyed by alert kind: new alerts are prepended and the
    list is cut to 12.
  - Dismissal by removal, and the overall status.
  - The page's own heart-rate and SpO2 card bands.
- **Demonstration page** (`DemoPage`): `randomIn` and two 20-sample buffers
  kept short by a shifting loop.
- **Multi-patient dashboard** (`WardDashboard`, `AlertPanel`, `PatientCard`,
  `GaugeView`).
  - Dismissal marks alerts read.
  - Patient selection, and the header severity badge.
  - The alert panel's ordering, counts and "All clear" badge.
  - The card's tones and red figures.
  - The gauge's status, and the two slices of its arc.
- **Mock generators** (`MockData`): vitals with variation, the eight mock
  patients, the five-minute history and the periodic update.

Randomness, the clock and rounding are parameters:

- Every `Math.random()` result is a draw `r` passed in by the caller. Where a
  bound depends on the draw, the contract assumes `0 <= r < 1` (`IsDraw`).
- `Date.now()` is a parameter `now`. One `now` stands for every clock read of a callback (see "## Left out").
- Vital values are exact reals.
- `Math.round` is modelled exactly, as `floor(x + 0.5)`.
- The temperature's `toFixed(1)` result is a parameter `tempFixed`.
- The gauge's percentage can divide by zero. It is kept as a small
  JavaScript-number type (`Fin`, `PosInf`, `NegInf`, `NaN`), so the degenerate
  gauge is modelled too.

Timer ticks are function applications:

- `MonitorPage.GenerateNext` then `MonitorPage.Evaluate`.
- `DemoPage.Tick`.
- `WardDashboard.Step` and `WardDashboard.Run`.

Behaviour the proofs bring out:

- On the monitor page, the keys stay pairwise distinct, so the list never
  holds more than four alerts and the cut to 12 never removes anything.
- Alerts persist until dismissed. A new reading therefore never lowers the
  page status.
- The page's own bands differ from the patient classifier's. A heart rate in
  (100, 120] is critical on the page but a warning to the classifier. A SpO2
  in [90, 95) is normal on the page.
- The card's heart-rate gauge gets the same value (60) for both thresholds.
  So it never shows Warning, and it shows Normal for a heart rate above 120.
- In the warning branch of `generateMockPatients`, the alternative after `||`
  is never used. The first operand is at least 50, so it is never zero.
- On the multi-patient dashboard, anomaly detection is switched off. The
  alert list stays empty whatever the user does.
- Updates always vary the patient list captured at start-up, not the latest
  one. So vitals never drift more than one step away from their starting
  values.
- The gauge's coloured slice is NaN when `min == max == value`, and 0 or 100
  otherwise on an empty range.

Two behaviours worth noting:

- The multi-patient dashboard's dismiss button marks an alert read; it does
  not remove it.
- No alert is ever superseded or cleared automatically.

## Model

| member | source | states |
|---|---|---|
| PatientTypes.ThresholdsNest | src/types/patient.ts:30-38 | critical SpO2 90 < normal minimum 95; critical HR minimum 40 < normal minimum 60 <= normal maximum 100 < critical maximum 120; each normal range has min <= max |
| AlertUtils.GetAnomalySeverity | src/utils/alertUtils.ts:74-92 | the severity is the worse of the SpO2-only band and the heart-rate-only band |
| AlertUtils.SeverityBands | src/utils/alertUtils.ts:75-91 | critical iff spO2 < 90 or hr < 40 or hr > 120; warning iff not critical and (spO2 < 95 or hr < 60 or hr > 100); normal iff spO2 >= 95 and 60 <= hr <= 100 |
| AlertUtils.BoundariesAreStrict | src/utils/alertUtils.ts:74-92 | the boundary values fall in the milder band: spO2 90, hr 40, hr 120 give warning; spO2 95, hr 60, hr 100 give normal |
| AlertUtils.IsAnomalous | src/utils/alertUtils.ts:66-72 | isAnomalous holds iff getAnomalySeverity is not normal |
| AlertUtils.MakeAlert | src/utils/alertUtils.ts:10-18 | the alert is unread, has the patient's id and name, the given type and timestamp, and an id starting with the patient id and the vital tag |
| AlertUtils.AlertFor | src/utils/alertUtils.ts:9-29 | a normal band yields no alert; otherwise exactly one, whose type signals that band and whose id carries the vital's tag |
| AlertUtils.DetectAnomalies | src/utils/alertUtils.ts:4-64 | one alert per non-normal vital, so at most 2; each alert carries exactly one vital's tag and that vital's band as its type; a vital has an alert iff its band is not normal; the SpO2 alert comes before the heart-rate alert; all for this patient, unread, stamped now; empty iff not isAnomalous; holds a critical alert iff the severity is critical; ids pairwise distinct |
| AlertUtils.TagLetters | src/utils/alertUtils.ts:11-37 | the character after the patient id and the dash is `s` in a SpO2-tagged id and `h` in a heart-rate-tagged one |
| AlertUtils.TagsSeparateIds | src/utils/alertUtils.ts:11-37 | a SpO2 alert id and a heart-rate alert id of one patient never coincide |
| AlertUtils.WorstOf | src/utils/alertUtils.ts:4-64 | the most urgent severity among a list of alerts, witnessed by an alert unless normal |
| AlertUtils.DetectionMatchesSeverity | src/utils/alertUtils.ts:4-92 | the most urgent detected alert is exactly getAnomalySeverity |
| Numbers.Clamp | src/pages/Dashboard.tsx:25-27 | max(lo, min(hi, x)) lies in [lo, hi], is x inside the band, and otherwise the nearer bound |
| Numbers.ClampNonExpansive | src/utils/mockData.ts:20-21 | clamping never moves a value further from any point inside the band |
| Numbers.Round | src/pages/Dashboard.tsx:25-26 | Math.round lands within half a unit of its argument |
| MonitorPage.MakeInitial | src/pages/Dashboard.tsx:10-21 | the first readings are 72 bpm, 97 % and 36.7 °C, all stamped t; each trend buffer holds exactly 16 samples, sample i taken from draw i; HR samples lie in [70, 80] and SpO2 samples in [95, 98] |
| MonitorPage.InitialReadingRaisesNothing | src/pages/Dashboard.tsx:69-105 | the reducer's run on the initial reading raises nothing: the page starts with no alerts and the counter at 1 |
| MonitorPage.Push | src/pages/Dashboard.tsx:29-34 | the pushed value ends the result; below 20 samples it is input + [v]; at exactly 20 it is tail(input) + [v]; never longer than 20 |
| MonitorPage.PushKeepsLatest | src/pages/Dashboard.tsx:29-34 | push keeps exactly the 20 most recent samples (the reference FIFO window) |
| Fifo.AppendAllKeepsLatest | src/pages/Dashboard.tsx:29-34 | appending samples one at a time into a capped buffer leaves the latest n of all samples, in arrival order |
| MonitorPage.GenerateNext | src/pages/Dashboard.tsx:23-45 | hr in [40, 140] and integral, spO2 in [85, 100] and integral, temp in [35, 40.5], all stamped now; trend lengths stay in [16, 20]; each trend is the previous trend with the new value pushed |
| MonitorPage.HeartRateStepBounded | src/pages/Dashboard.tsx:24-25 | one tick moves the heart rate by at most 3% plus half a beat |
| MonitorPage.Take | src/pages/Dashboard.tsx:103 | slice(0, n) is a prefix of the list: the whole list when it is short, exactly n alerts otherwise |
| MonitorPage.Evaluate | src/pages/Dashboard.tsx:69-105 | at most 12 alerts; the id counter never decreases; a well-formed list stays well-formed (one alert per kind, unique issued ids, type fixed by kind) and is kept unchanged behind new alerts, each justified by its condition; the new alerts stand in reverse check order (temperature, SpO2, heart rate), their ids run down from the counter's last value, and the counter rises by exactly their number |
| MonitorPage.Raised | src/pages/Dashboard.tsx:72-100 | the three checks only prepend alerts, each of a kind whose condition holds and that was absent, with its kind's type and timestamp; the later check's alert stands in front, ids are consecutive from the old counter value with the newest highest, and the counter rises by exactly the number raised; on a well-formed list the result is well-formed and holds at most four alerts |
| MonitorPage.RaiseIfUnshifts | src/pages/Dashboard.tsx:76-100 | a check running after every check that has raised so far puts its alert in front with the next id, keeping the new alerts in check order |
| MonitorPage.AllThreeRaisedInCheckOrder | src/pages/Dashboard.tsx:72-100 | with all three conditions on an empty list, the list is temperature (id 3), SpO2 (id 2), heart rate (id 1), and the counter is 4 |
| MonitorPage.RaiseIfPreservesWf | src/pages/Dashboard.tsx:78-98 | a conditional insertion with the kind's type preserves the list invariant |
| MonitorPage.RaisePreservesWf | src/pages/Dashboard.tsx:78-80 | inserting only when the key is absent, with the next counter value, preserves the invariant |
| MonitorPage.DistinctKeysBound | src/pages/Dashboard.tsx:78-103 | with pairwise distinct keys there are at most 4 alerts, so the cut to 12 never bites |
| MonitorPage.EvaluateRaisesAlert | src/pages/Dashboard.tsx:76-100 | whenever a kind's condition holds (hr > 100, hr < 60, spO2 < 90, temp > 38) the list holds an alert of that kind |
| MonitorPage.RaisedHasKey | src/pages/Dashboard.tsx:76-100 | after the three checks every kind whose condition holds is present |
| MonitorPage.SustainedAnomalyHasOneAlert | src/pages/Dashboard.tsx:76-100 | a sustained anomaly gives exactly one alert of its kind |
| MonitorPage.ExtendsKeepsKeyOwners | src/pages/Dashboard.tsx:78-98 | an extension of a list that already holds a kind adds no alert of that kind |
| MonitorPage.EvaluateDedups | src/pages/Dashboard.tsx:78-98 | when a kind is already listed, every alert of that kind afterwards is an old one |
| MonitorPage.RemoveId | src/pages/Dashboard.tsx:107 | the survivors are exactly the alerts without that id; an unknown id changes nothing |
| MonitorPage.RemoveIdDistributes | src/pages/Dashboard.tsx:107 | filtering distributes over concatenation, so the survivors keep their order |
| MonitorPage.RemovePreservesWf | src/pages/Dashboard.tsx:107 | removal keeps keys and ids distinct, ids issued and types matching kinds |
| MonitorPage.Dismiss | src/pages/Dashboard.tsx:107 | dismissal is the filter of the list by that id: exactly the other alerts survive, in their order (with RemoveIdDistributes); an unknown id changes nothing; the counter is left alone and the invariant preserved |
| MonitorPage.DismissClearsKey | src/pages/Dashboard.tsx:107 | with distinct keys, dismissing an alert leaves none of its kind and keeps the id counter |
| MonitorPage.FreshAlertOfMissingKind | src/pages/Dashboard.tsx:78-98 | an alert of a kind the old list lacked carries an id at or above the old counter |
| MonitorPage.DismissThenReraise | src/pages/Dashboard.tsx:78-107 | dismissing an alert whose condition persists lets the next reading raise a fresh one of that kind with a new id |
| MonitorPage.OverallStatus | src/pages/Dashboard.tsx:109-113 | the status is at least as urgent as every alert, and is witnessed by an alert unless normal |
| MonitorPage.StatusNeverDropsOnExtend | src/pages/Dashboard.tsx:109-113 | putting justified alerts in front of a list never lowers its overall status |
| MonitorPage.StatusNeverDropsOnEvaluate | src/pages/Dashboard.tsx:69-113 | a new reading never lowers the overall status |
| MonitorPage.LowSpO2MakesStatusCritical | src/pages/Dashboard.tsx:85-113 | a SpO2 below 90 makes the status critical |
| MonitorPage.HeartRateCardKind | src/pages/Dashboard.tsx:132 | the HR card is critical iff the hr-high condition holds and a warning iff the hr-low condition holds |
| MonitorPage.SpO2CardKind | src/pages/Dashboard.tsx:145 | the SpO2 card is never a warning, and critical iff the spo2-low condition holds |
| MonitorPage.CardMatchesRaisedAlert | src/pages/Dashboard.tsx:76-132 | the HR card shows the severity of the alert the same reading puts in the list |
| MonitorPage.CardBandsDifferFromClassifier | src/pages/Dashboard.tsx:132-145 | hr in (100, 120] is critical here but a warning to getAnomalySeverity's bands; spO2 in [90, 95) is normal here but a warning there |
| AlertsPanel.NewestFirst | src/components/AlertsPanel.tsx:18 | the sorted copy is a permutation of the alerts with non-increasing timestamps |
| AlertsPanel.Render | src/components/AlertsPanel.tsx:17-44 | a missing list counts as empty; the count is the list's length; the placeholder shows iff there are no alerts; otherwise the items are the alerts sorted newest first |
| AlertsPanel.NewestHeadsList | src/components/AlertsPanel.tsx:18 | no alert is newer than the first item |
| DemoPage.RandomIn | src/pages/Dashboard.jsx:6-8 | the result is a whole number; for integer bounds min <= max and a draw in [0, 1), it lies in [min, max] |
| DemoPage.AppendCapped | src/pages/Dashboard.jsx:17-21 | the shifting loop leaves the longest suffix of prev + [v] of length <= 20, ending in v |
| DemoPage.Append | src/pages/Dashboard.jsx:17-27 | at most 20 samples, ending in v; exactly 20 once the buffer was full; prev + [v] while it was not |
| DemoPage.Initial | src/pages/Dashboard.jsx:12-13 | buffers start with 12 samples, HR in [70, 85] and SpO2 in [95, 99] |
| DemoPage.Tick | src/pages/Dashboard.jsx:15-27 | each buffer becomes the latest 20 of its old samples plus one new sample; the new heart rate lies in [60, 120] and the new SpO2 in [90, 100] for draws in [0, 1) |
| DemoPage.InitialWf | src/pages/Dashboard.jsx:12-13 | the initial buffers satisfy the buffer invariant |
| DemoPage.TickPreservesWf | src/pages/Dashboard.jsx:15-27 | every tick keeps 12 to 20 samples per buffer, HR in [60, 120] and SpO2 in [90, 100] |
| DemoPage.AppendKeepsRange | src/pages/Dashboard.jsx:17-21 | appending an in-range sample keeps every sample in range |
| DemoPage.PushesAgree | src/pages/Dashboard.jsx:18-19 | the loop-based append and the single-shift push of the monitor page agree on every buffer of at most 20 samples |
| WardDashboard.MarkRead | src/components/Dashboard.tsx:50-56 | same length and order; only read flags change; an alert is read afterwards iff it was read or carries the id |
| WardDashboard.MarkReadIdempotent | src/components/Dashboard.tsx:52-54 | dismissing twice equals dismissing once |
| WardDashboard.MarkReadUnknownId | src/components/Dashboard.tsx:52-54 | an unknown id leaves the list unchanged |
| WardDashboard.MarkReadCommutes | src/components/Dashboard.tsx:50-56 | two dismissals commute |
| WardDashboard.MarkReadLowersUnread | src/components/Dashboard.tsx:50-56 | dismissal never raises the unread count, and lowers it iff an unread alert carries the id |
| WardDashboard.InitialSelection | src/components/Dashboard.tsx:19-21 | a selection exists iff the list is non-empty, and it is the first patient's id |
| WardDashboard.SelectedPatient | src/components/Dashboard.tsx:47 | a patient is found iff one carries the selected id; it is the first such patient |
| WardDashboard.HeaderSeverity | src/components/Dashboard.tsx:47-48 | the header shows the selected patient's classifier severity, or normal when none is found |
| WardDashboard.Start | src/components/Dashboard.tsx:16-22 | after mounting, the patients and the captured list are the given list, its first patient is selected and there are no alerts |
| WardDashboard.Run | src/components/Dashboard.tsx:16-54 | after any events the captured list is unchanged; without refreshes the patients, without selections the selection, without dismissals the alerts stay as they were |
| WardDashboard.Step | src/components/Dashboard.tsx:25-107 | a refresh replaces the patients with an update of the captured list; selecting sets the id; dismissing marks read; nothing else changes |
| WardDashboard.AlertsStayEmpty | src/components/Dashboard.tsx:11-37 | the alert list stays empty after any sequence of refreshes, selections and dismissals |
| WardDashboard.RunKeepsNoAlerts | src/components/Dashboard.tsx:11-56 | from an empty alert list no event sequence produces an alert |
| WardDashboard.RunKeepsIdentities | src/utils/mockData.ts:94-110 | after any events the patients have the captured ids, names, ages and rooms, in order |
| WardDashboard.PatientsKeepIdentities | src/components/Dashboard.tsx:17-27 | the patients on screen always are the generated patients with fresh vitals |
| WardDashboard.StartShowsFirstPatient | src/components/Dashboard.tsx:17-48 | right after loading, the first patient is selected and the header shows its severity |
| WardDashboard.StartOnMockPatients | src/components/Dashboard.tsx:16-22 | mounted on the generated ward, the page shows the eight mock patients and selects P001 |
| MockData.GenerateVitalsWithVariation | src/utils/mockData.ts:14-23 | spO2 in [85, 100], hr in [40, 150] for any variation; within 1 and 5 of the base unless clamped |
| MockData.VariationWithinStep | src/utils/mockData.ts:14-23 | inside the bands a variation moves SpO2 by at most 1 and HR by at most 5 |
| MockData.BaseVitals | src/utils/mockData.ts:28-46 | base ranges per branch; in the warning branch the base HR lies in [50, 70), so the second alternative of the logical or is never used |
| Text.PadStart | src/utils/mockData.ts:52 | padStart keeps the string as the suffix, fills the rest with the pad character, and reaches the target width |
| Text.PaddedDecimalInjective | src/utils/mockData.ts:52 | distinct numbers keep distinct zero-padded decimal strings |
| MockData.PatientId | src/utils/mockData.ts:52 | an id is `P` followed by at least three digits that read back as the one-based index |
| MockData.PatientIdsDistinct | src/utils/mockData.ts:52 | different indices give different patient ids |
| MockData.FirstPatientIds | src/utils/mockData.ts:52 | the ids run from P001 to P008 |
| MockData.AgeInRange | src/utils/mockData.ts:54 | the age offset floor(r * 40) lies in [0, 39] for a draw in [0, 1) |
| MockData.MockPatient | src/utils/mockData.ts:26-66 | the patient carries its name, id P+index and room 100 + index; its vitals are the variation of its branch's base vitals under its own draws, clamped and stamped now; its age is 40 + floor(40r), in [40, 79] |
| MockData.GenerateMockPatients | src/utils/mockData.ts:25-67 | one patient per name (8), in order, patient i built from draws i; ids and rooms pairwise distinct, clamped vitals, ages in [40, 79] |
| MockData.NormalBranchIsNormal | src/utils/mockData.ts:43-51 | a patient of the 70% normal branch is classified normal |
| MockData.CriticalBranchIsAnomalous | src/utils/mockData.ts:33-51 | a patient of the 10% critical branch is always anomalous |
| MockData.DistinctIdsAndRooms | src/utils/mockData.ts:52-55 | ids P-index and rooms 100 + index are pairwise distinct |
| MockData.GenerateMockVitalHistory | src/utils/mockData.ts:69-87 | exactly count points (none below 1), point j built from draw j, values inside the clamp bands and, for valid draws, equal to the unclamped 93 + 5r and 60 + 20r, timestamps rising by 300000 ms, the last equal to now |
| MockData.HistoryValuesUnclamped | src/utils/mockData.ts:76-82 | history points lie in SpO2 [93, 98) and HR [60, 80), so the clamps never act |
| MockData.SimulateUpdate | src/utils/mockData.ts:94-110 | same length; id, name, age and room kept; vitals clamped and stamped now |
| MockData.UpdatesDoNotAccumulate | src/utils/mockData.ts:89-113 | every update is within one step of the captured values, however many updates ran |
| GaugeView.DefaultThresholds | src/components/Gauge.tsx:20-21 | given thresholds are kept; an omitted warning is 0.9 max and an omitted critical 0.8 max, so with both defaults and max > 0 the order is critical < warning < max |
| GaugeView.GaugeStatus | src/components/Gauge.tsx:25-34 | Critical iff value < critical; Warning iff critical <= value < warning; Normal iff neither |
| GaugeView.CollapsedWarningBand | src/components/Gauge.tsx:28-34 | with warning <= critical the gauge never shows Warning |
| GaugeView.StatusMonotone | src/components/Gauge.tsx:28-34 | a higher value never shows a worse status |
| GaugeView.StatusColour | src/components/Gauge.tsx:25-33 | critical is #ef4444, warning #f59e0b and normal #10b981, each a `#rrggbb` hex colour |
| GaugeView.ColoursDistinct | src/components/Gauge.tsx:25-33 | the three statuses have three different colours |
| GaugeView.Divide | src/components/Gauge.tsx:23 | division by the zero range gives NaN for 0, +Infinity above and -Infinity below |
| GaugeView.Percentage | src/components/Gauge.tsx:23 | on a proper range the finite ratio times 100; on an empty range never finite, NaN exactly at min |
| GaugeView.PercentageFromMin | src/components/Gauge.tsx:23 | on a proper range a value from min upwards gives a finite, non-negative percentage |
| GaugeView.PercentageEndpoints | src/components/Gauge.tsx:23-37 | min reads 0%, max reads 100%, and values between are drawn unchanged |
| GaugeView.Used | src/components/Gauge.tsx:37 | the coloured slice lies in [0, 100] unless the percentage is NaN |
| GaugeView.Remaining | src/components/Gauge.tsx:38 | the grey slice is non-negative for a finite percentage, 0 at +Infinity, +Infinity at -Infinity |
| GaugeView.SlicesFillArc | src/components/Gauge.tsx:37-38 | the slices sum to 100 whenever the percentage is non-negative or +Infinity |
| GaugeView.BelowMinOverfills | src/components/Gauge.tsx:23-38 | below min the coloured slice is empty and the grey slice exceeds 100 |
| GaugeView.Gauge | src/components/Gauge.tsx:14-39 | the colour is the status's colour; on a proper range from min upwards the slices fill the arc exactly |
| PatientCard.BorderClass | src/components/PatientCard.tsx:15-19 | the border is red, amber or green for critical, warning or normal |
| PatientCard.HeaderClass | src/components/PatientCard.tsx:21-25 | the header background uses the border's tone |
| PatientCard.FrameDistinguishesSeverity | src/components/PatientCard.tsx:13-25 | different severities give different border and header classes |
| PatientCard.SpO2TextRed | src/components/PatientCard.tsx:50 | the SpO2 figure is red iff the SpO2 band of the classifier is not normal |
| PatientCard.HeartRateTextRed | src/components/PatientCard.tsx:57-62 | the heart-rate figure is red iff the heart-rate band of the classifier is not normal |
| PatientCard.RedTextMatchesFrame | src/components/PatientCard.tsx:50-62 | some figure is red (spO2 < 95; hr < 60 or > 100) iff isAnomalous, that is iff the frame is not green |
| PatientCard.SpO2Gauge | src/components/PatientCard.tsx:73-81 | from 85 upwards the SpO2 gauge's arc is exactly filled |
| PatientCard.HeartRateGauge | src/components/PatientCard.tsx:84-92 | from 40 upwards the heart-rate gauge's arc is exactly filled |
| PatientCard.SpO2GaugeAgreesWithClassifier | src/components/PatientCard.tsx:73-81 | the SpO2 gauge's status is the classifier's SpO2-only band |
| PatientCard.HeartRateGaugeTwoStates | src/components/PatientCard.tsx:84-92 | the heart-rate gauge never shows Warning and is Critical iff hr < 60 |
| PatientCard.HeartRateGaugeDisagreesWithClassifier | src/components/PatientCard.tsx:84-92 | hr > 120 is Normal on the gauge but critical to the classifier; hr in [40, 60) is Critical on the gauge but a warning to the classifier |
| AlertPanel.SeverityOrder | src/components/AlertPanel.tsx:68 | critical 0, warning 1, info 2: the reverse of the severity each type signals |
| Sorting.SortBy | src/components/AlertPanel.tsx:65-74 | the result is a permutation of the input, sorted by the key |
| AlertPanel.SortForDisplay | src/components/AlertPanel.tsx:65-74 | a permutation with non-decreasing severity order, and alerts of one type newest first |
| AlertPanel.CountOf | src/components/AlertPanel.tsx:17-18 | the count is 0 iff no alert has the type, and the list length iff all have it |
| AlertPanel.CountOfPermutation | src/components/AlertPanel.tsx:17-74 | permuted lists have equal type counts |
| AlertPanel.BadgesMatchList | src/components/AlertPanel.tsx:17-74 | the badges count the same alerts the sorted list shows |
| AlertPanel.UnreadCount | src/components/AlertPanel.tsx:16 | the unread count is 0 iff every alert is read |
| AlertPanel.Render | src/components/AlertPanel.tsx:42-64 | the critical and warning badges show iff such alerts exist, with their counts; "All clear" iff every alert is read; the placeholder iff the list is empty; otherwise the items are the alerts in display order (severity, then newest first) |
| AlertPanel.AllClearIgnoresSeverity | src/components/AlertPanel.tsx:16-55 | a read critical alert shows both the critical badge and "All clear" |
| AlertPanel.AlertIcon | src/components/AlertPanel.tsx:20-29 | critical gets the single emoji U+1F6A8; warning and info get a glyph followed by U+FE0F, and the glyph is U+26A0 iff the type is warning; info is U+2139 U+FE0F |
| AlertPanel.AlertColour | src/components/AlertPanel.tsx:31-40 | each type's colour class is alert- followed by the type's name |
| AlertPanel.PresentationDistinguishesTypes | src/components/AlertPanel.tsx:20-40 | different types get different icons and colour classes |

## Left out

- Timers, `useEffect`/`useState` wiring, interval cleanup and the loading flag. These are event-loop plumbing, so each tick is one function application.
- `Math.random()` and `Date.now()` are parameters. IEEE rounding of vital arithmetic is not modelled; values are exact reals.
- MonitorPage.GenerateNext, MockData.GenerateMockPatients and MockData.SimulateUpdate: clock reads within one callback are taken to be equal, so one `now` stamps every reading they produce. The source reads the clock three times per tick in `generateNext`, once per patient in `generateMockPatients` and twice per patient in each update. Those reads can differ by a millisecond, which can reorder same-tick alerts when the alerts panel sorts newest first.
- `toFixed`, `toLocaleString` and `toLocaleTimeString` output is not modelled. The one `toFixed(1)` that feeds state (the temperature) is a parameter.
- `formatTime` and `formatDate` are not modelled, because they are locale-dependent library calls.
- Alert message strings are not modelled. They print floating-point values.
- The monitor page's one-second clock state is not modelled, because it is display only.
- The "Avg HR (5m)" and "Min SpO2" figures of the monitor page are not modelled, because they are display formatting.
- The multi-patient dashboard's `vitalHistory` state is not modelled. It is generated on selection and only passed to PatientDetail, which is not part of this model. `generateMockVitalHistory` itself is modelled.
- The recharts and SVG drawing of Gauge, TrendChart and VitalChart is not modelled, because it is float coordinate math in a foreign library.
- VitalCard, StatusBadge, SearchFilter and App are not modelled, because they are presentational.
- `alerts.sort` in AlertPanel mutates the caller's array in place. Only the order of the result is modelled.
- AlertPanel.SortForDisplay: does not state that alerts with equal type and timestamp keep their input order. JavaScript's sort is stable and so is the insertion sort used here, but stability is not proved.
- AlertsPanel.NewestFirst: does not state stability either, for the same reason.
- AlertsPanel.Render: the alert type is a free string in that component. Only the three alert types are modelled, and the uppercase label and class name are not.
- AlertPanel.AlertIcon and AlertPanel.AlertColour: their `default` branch is reached only by the info type, because alert types are the three constructors.
- The monitor page's alert ids `a-<n>` are represented by the counter value `n`.
- AlertUtils.MakeAlert: takes the time as a natural number, since `Date.now()` is never negative. Alert ids print it in decimal.
- MockData.GenerateMockVitalHistory: the count is an integer. A fractional count is not modelled.
- GaugeView.Used: the coloured slice is NaN when `min == max == value`, so "always in [0, 100]" holds only when the percentage is not NaN.

=== FILE: alert_panel.dfy ===
/** The alert panel of the multi-patient dashboard: severity-then-time
    ordering, per-type counts, the "All clear" badge and the icon and colour
    of each alert type. */
module AlertPanel {
  import opened PatientTypes
  import Sorting

  /** `severityOrder`: critical first, then warning, then info. */
  function SeverityOrder(t: AlertType): (r: int)
    ensures 0 <= r <= 2
    ensures r == 2 - Rank(Escalation(t))
  {
    match t
    case Critical => 0
    case Warning => 1
    case Info => 2
  }

  /** The comparator as a key: severity order ascending, then timestamp descending. */
  function PanelKey(a: Alert): Sorting.Key {
    (SeverityOrder(a.alertType), -a.timestamp)
  }

  /** The list as displayed: the same alerts, more urgent types first and,
      within a type, newest first. */
  function SortForDisplay(alerts: seq<Alert>): (r: seq<Alert>)
    ensures multiset(r) == multiset(alerts)
    ensures |r| == |alerts|
    ensures forall i, j :: 0 <= i < j < |r| ==> SeverityOrder(r[i].alertType) <= SeverityOrder(r[j].alertType)
    ensures forall i, j :: 0 <= i < j < |r| && r[i].alertType == r[j].alertType ==> r[i].timestamp >= r[j].timestamp
  {
    var r := Sorting.SortBy(alerts, PanelKey);
    assert forall i, j :: 0 <= i < j < |r| ==> Sorting.KeyLe(PanelKey(r[i]), PanelKey(r[j]));
    r
  }

  /** How many alerts have the given type. */
  function CountOf(alerts: seq<Alert>, t: AlertType): (n: nat)
    ensures n <= |alerts|
    ensures n == 0 <==> forall i :: 0 <= i < |alerts| ==> alerts[i].alertType != t
    ensures n == |alerts| <==> forall i :: 0 <= i < |alerts| ==> alerts[i].alertType == t
  {
    if |alerts| == 0 then 0
    else (if alerts[0].alertType == t then 1 else 0) + CountOf(alerts[1..], t)
  }

  lemma {:induction false} CountOfConcat(a: seq<Alert>, b: seq<Alert>, t: AlertType)
    ensures CountOf(a + b, t) == CountOf(a, t) + CountOf(b, t)
    decreases |a|
  {
    if |a| > 0 {
      assert (a + b)[1..] == a[1..] + b;
      CountOfConcat(a[1..], b, t);
    } else {
      assert a + b == b;
    }
  }

  /** Counts depend only on which alerts there are, not on their order: the
      badges agree with the sorted list. */
  lemma {:induction false} CountOfPermutation(a: seq<Alert>, b: seq<Alert>, t: AlertType)
    requires multiset(a) == multiset(b)
    ensures CountOf(a, t) == CountOf(b, t)
    decreases |a|
  {
    if |a| == 0 {
      assert |b| == |multiset(b)| == 0;
    } else {
      assert a[0] in multiset(b);
      var k :| 0 <= k < |b| && b[k] == a[0];
      var b' := b[..k] + b[k + 1..];
      RemoveOne(a, b, k);
      CountOfPermutation(a[1..], b', t);
      CountOfWithout(b, k, t);
    }
  }

  /** Taking the same element out of two permutations leaves permutations. */
  lemma RemoveOne(a: seq<Alert>, b: seq<Alert>, k: nat)
    requires multiset(a) == multiset(b)
    requires 0 < |a| && k < |b| && b[k] == a[0]
    ensures multiset(a[1..]) == multiset(b[..k] + b[k + 1..])
  {
    assert a == [a[0]] + a[1..];
    assert b == b[..k] + [b[k]] + b[k + 1..];
    assert multiset(a[1..]) == multiset(a) - multiset{a[0]};
    assert multiset(b[..k] + b[k + 1..]) == multiset(b) - multiset{b[k]};
  }

  /** Removing the element at `k` lowers the count by one exactly when it has the type. */
  lemma CountOfWithout(b: seq<Alert>, k: nat, t: AlertType)
    requires k < |b|
    ensures CountOf(b, t) == CountOf(b[..k] + b[k + 1..], t) + (if b[k].alertType == t then 1 else 0)
  {
    assert b == b[..k] + [b[k]] + b[k + 1..];
    CountOfConcat(b[..k] + [b[k]], b[k + 1..], t);
    CountOfConcat(b[..k], [b[k]], t);
    CountOfConcat(b[..k], b[k + 1..], t);
  }

  /** How many alerts are unread. */
  function UnreadCount(alerts: seq<Alert>): (n: nat)
    ensures n <= |alerts|
    ensures n == 0 <==> forall i :: 0 <= i < |alerts| ==> alerts[i].read
  {
    if |alerts| == 0 then 0
    else (if alerts[0].read then 0 else 1) + UnreadCount(alerts[1..])
  }

  datatype Body = NoAlerts | Items(items: seq<Alert>)

  /** What the panel renders: the two count badges (shown when non-zero), the
      "All clear" badge, and either the placeholder or the sorted list. */
  datatype PanelView = PanelView(critical: Option<nat>, warning: Option<nat>, allClear: bool, body: Body)

  function Render(alerts: seq<Alert>): (v: PanelView)
    ensures v.critical.Some? <==> exists i :: 0 <= i < |alerts| && alerts[i].alertType == AlertType.Critical
    ensures v.warning.Some? <==> exists i :: 0 <= i < |alerts| && alerts[i].alertType == AlertType.Warning
    ensures v.critical.Some? ==> v.critical.value == CountOf(alerts, AlertType.Critical)
    ensures v.warning.Some? ==> v.warning.value == CountOf(alerts, AlertType.Warning)
    ensures v.allClear <==> forall i :: 0 <= i < |alerts| ==> alerts[i].read
    ensures v.body.NoAlerts? <==> |alerts| == 0
    ensures v.body.Items? ==> multiset(v.body.items) == multiset(alerts)
    ensures v.body.Items? ==> v.body.items == SortForDisplay(alerts)
  {
    var critical := CountOf(alerts, AlertType.Critical);
    var warning := CountOf(alerts, AlertType.Warning);
    PanelView(
      if critical > 0 then Some(critical) else None,
      if warning > 0 then Some(warning) else None,
      UnreadCount(alerts) == 0,
      if |alerts| == 0 then NoAlerts else Items(SortForDisplay(alerts)))
  }

  /** The badges count the same alerts the sorted list shows. */
  lemma BadgesMatchList(alerts: seq<Alert>, t: AlertType)
    ensures CountOf(SortForDisplay(alerts), t) == CountOf(alerts, t)
  {
    CountOfPermutation(SortForDisplay(alerts), alerts, t);
  }

  /** "All clear" looks only at read flags: a panel of read critical alerts
      shows both the critical badge and "All clear". */
  lemma AllClearIgnoresSeverity(a: Alert)
    requires a.alertType == AlertType.Critical && a.read
    ensures Render([a]).allClear && Render([a]).critical == Some(1)
  {
  }

  /** `getAlertIcon`; anything but critical or warning gets the info icon.
      The critical icon is one emoji; the other two are a text glyph followed
      by the emoji presentation selector U+FE0F. */
  function AlertIcon(t: AlertType): (c: string)
    ensures t == AlertType.Critical ==> c == ['\U{1F6A8}']
    ensures t != AlertType.Critical ==> |c| == 2 && c[1] == '\U{FE0F}'
    ensures t == AlertType.Warning <==> c[0] == '\U{26A0}'
    ensures t == AlertType.Info ==> c == "\U{2139}\U{FE0F}"
  {
    match t
    case Critical => "\U{1F6A8}"
    case Warning => "\U{26A0}\U{FE0F}"
    case Info => "\U{2139}\U{FE0F}"
  }

  /** `getAlertColor`: `alert-` followed by the type's name. */
  function AlertColour(t: AlertType): (c: string)
    ensures c == "alert-" + TypeName(t)
  {
    match t
    case Critical => "alert-critical"
    case Warning => "alert-warning"
    case Info => "alert-info"
  }

  /** Icons and colours tell the three types apart. */
  lemma PresentationDistinguishesTypes(s: AlertType, t: AlertType)
    requires s != t
    ensures AlertIcon(s) != AlertIcon(t)
    ensures AlertColour(s) != AlertColour(t)
  {
  }
}

=== FILE: alert_utils.dfy ===
/** Severity classification and anomaly detection of the multi-patient
    dashboard: nested threshold bands on SpO2 and heart rate. */
module AlertUtils {
  import opened PatientTypes
  import Text

  /** The SpO2 band alone: below the critical threshold, below the normal
      minimum, or normal. */
  function SpO2Severity(v: real): Severity {
    if v < CriticalSpO2 then Severity.Critical
    else if v < NormalSpO2.min then Severity.Warning
    else Severity.Normal
  }

  /** The heart-rate band alone: outside the critical range, outside the
      normal range, or normal. */
  function HeartRateSeverity(v: real): Severity {
    if v < CriticalHeartRate.min || v > CriticalHeartRate.max then Severity.Critical
    else if v < NormalHeartRate.min || v > NormalHeartRate.max then Severity.Warning
    else Severity.Normal
  }

  /** `getAnomalySeverity`: critical checks first over both vitals, then
      warning checks; its verdict is the worse of the two per-vital bands. */
  function GetAnomalySeverity(p: Patient): (r: Severity)
    ensures r == Worse(SpO2Severity(p.spO2.value), HeartRateSeverity(p.heartRate.value))
  {
    var spO2 := p.spO2.value;
    var hr := p.heartRate.value;
    if spO2 < CriticalSpO2 || hr < CriticalHeartRate.min || hr > CriticalHeartRate.max then
      Severity.Critical
    else if spO2 < NormalSpO2.min || hr < NormalHeartRate.min || hr > NormalHeartRate.max then
      Severity.Warning
    else
      Severity.Normal
  }

  /** `isAnomalous`: some vital is outside its normal range. It holds exactly
      when the severity is not normal. */
  predicate IsAnomalous(p: Patient)
    ensures IsAnomalous(p) <==> GetAnomalySeverity(p) != Severity.Normal
  {
    p.spO2.value < NormalSpO2.min
    || p.heartRate.value < NormalHeartRate.min
    || p.heartRate.value > NormalHeartRate.max
  }

  /** The bands with the threshold values written out; every comparison is strict. */
  lemma SeverityBands(p: Patient)
    ensures GetAnomalySeverity(p) == Severity.Critical
        <==> p.spO2.value < 90.0 || p.heartRate.value < 40.0 || p.heartRate.value > 120.0
    ensures GetAnomalySeverity(p) == Severity.Warning
        <==> !(p.spO2.value < 90.0 || p.heartRate.value < 40.0 || p.heartRate.value > 120.0)
             && (p.spO2.value < 95.0 || p.heartRate.value < 60.0 || p.heartRate.value > 100.0)
    ensures GetAnomalySeverity(p) == Severity.Normal
        <==> 95.0 <= p.spO2.value && 60.0 <= p.heartRate.value <= 100.0
  {
  }

  function WithVitals(spO2: real, hr: real): Patient {
    Patient("", "", 0, None, VitalSign(0, spO2), VitalSign(0, hr))
  }

  /** The boundary values themselves fall in the milder band. */
  lemma BoundariesAreStrict()
    ensures GetAnomalySeverity(WithVitals(90.0, 72.0)) == Severity.Warning
    ensures GetAnomalySeverity(WithVitals(98.0, 40.0)) == Severity.Warning
    ensures GetAnomalySeverity(WithVitals(98.0, 120.0)) == Severity.Warning
    ensures GetAnomalySeverity(WithVitals(95.0, 72.0)) == Severity.Normal
    ensures GetAnomalySeverity(WithVitals(98.0, 60.0)) == Severity.Normal
    ensures GetAnomalySeverity(WithVitals(98.0, 100.0)) == Severity.Normal
  {
  }

  /** The vital tag each alert id carries. */
  const SpO2Tag: string := "spO2"
  const HeartRateTag: string := "hr"

  /** The alert's id starts with the patient id and the vital's tag. */
  predicate TaggedFor(p: Patient, tag: string, a: Alert) {
    p.id + "-" + tag <= a.id
  }

  /** An unread alert for `p` raised at `now`, with id `<patient>-<vital>-<type>-<now>`. */
  function MakeAlert(p: Patient, tag: string, t: AlertType, now: nat): (a: Alert)
    ensures a.patientId == p.id && a.patientName == p.name
    ensures a.alertType == t && a.timestamp == now && !a.read
    ensures TaggedFor(p, tag, a)
  {
    var id := p.id + "-" + tag + "-" + TypeName(t) + "-" + Text.DecimalString(now);
    assert id == (p.id + "-" + tag) + ("-" + TypeName(t) + "-" + Text.DecimalString(now));
    Alert(id, p.id, p.name, t, now, false)
  }

  /** The alert one vital raises for its band: none when the band is normal,
      otherwise one of the band's type, tagged with the vital. */
  function AlertFor(p: Patient, tag: string, s: Severity, now: nat): (r: seq<Alert>)
    ensures |r| == if s == Severity.Normal then 0 else 1
    ensures forall a | a in r :: Escalation(a.alertType) == s && TaggedFor(p, tag, a)
    ensures forall a | a in r :: a.patientId == p.id && a.patientName == p.name && !a.read && a.timestamp == now
  {
    match s
    case Critical => [MakeAlert(p, tag, AlertType.Critical, now)]
    case Warning => [MakeAlert(p, tag, AlertType.Warning, now)]
    case Normal => []
  }

  /** `detectAnomalies`: at most one SpO2 alert followed by at most one
      heart-rate alert, each typed by its own vital's band, all unread, for
      this patient and stamped `now`. */
  function DetectAnomalies(p: Patient, now: nat): (r: seq<Alert>)
    ensures |r| == (if SpO2Severity(p.spO2.value) == Severity.Normal then 0 else 1)
                 + (if HeartRateSeverity(p.heartRate.value) == Severity.Normal then 0 else 1)
    ensures |r| <= 2
    ensures forall a | a in r :: a.patientId == p.id && a.patientName == p.name
                                 && !a.read && a.timestamp == now
    ensures forall a | a in r :: TaggedFor(p, SpO2Tag, a) != TaggedFor(p, HeartRateTag, a)
    ensures forall a | a in r && TaggedFor(p, SpO2Tag, a) ::
      Escalation(a.alertType) == SpO2Severity(p.spO2.value)
    ensures forall a | a in r && TaggedFor(p, HeartRateTag, a) ::
      Escalation(a.alertType) == HeartRateSeverity(p.heartRate.value)
    ensures (exists a | a in r :: TaggedFor(p, SpO2Tag, a)) <==> SpO2Severity(p.spO2.value) != Severity.Normal
    ensures (exists a | a in r :: TaggedFor(p, HeartRateTag, a))
        <==> HeartRateSeverity(p.heartRate.value) != Severity.Normal
    ensures forall i, j :: 0 <= i < j < |r| ==> TaggedFor(p, SpO2Tag, r[i]) && TaggedFor(p, HeartRateTag, r[j])
    ensures r == [] <==> !IsAnomalous(p)
    ensures (exists a | a in r :: a.alertType == AlertType.Critical)
        <==> GetAnomalySeverity(p) == Severity.Critical
    ensures forall i, j :: 0 <= i < j < |r| ==> r[i].id != r[j].id
  {
    var spO2Alerts := AlertFor(p, SpO2Tag, SpO2Severity(p.spO2.value), now);
    var hrAlerts := AlertFor(p, HeartRateTag, HeartRateSeverity(p.heartRate.value), now);
    var r := spO2Alerts + hrAlerts;
    TaggedInTurn(p, spO2Alerts, hrAlerts);
    r
  }

  /** A SpO2 list of at most one alert followed by a heart-rate list of at
      most one: each alert is found by its tag in the list it came from. */
  lemma TaggedInTurn(p: Patient, x: seq<Alert>, y: seq<Alert>)
    requires |x| <= 1 && |y| <= 1
    requires forall a | a in x :: TaggedFor(p, SpO2Tag, a)
    requires forall a | a in y :: TaggedFor(p, HeartRateTag, a)
    ensures forall a | a in x + y :: a in x || a in y
    ensures forall a | a in x + y :: TaggedFor(p, SpO2Tag, a) != TaggedFor(p, HeartRateTag, a)
    ensures forall a | a in x + y && TaggedFor(p, SpO2Tag, a) :: a in x
    ensures forall a | a in x + y && TaggedFor(p, HeartRateTag, a) :: a in y
    ensures (exists a | a in x + y :: TaggedFor(p, SpO2Tag, a)) <==> |x| > 0
    ensures (exists a | a in x + y :: TaggedFor(p, HeartRateTag, a)) <==> |y| > 0
    ensures forall i, j :: 0 <= i < j < |x + y| ==> TaggedFor(p, SpO2Tag, (x + y)[i]) && TaggedFor(p, HeartRateTag, (x + y)[j])
  {
    var r := x + y;
    TagLetters(p, r);
    assert forall a | a in r :: a in x || a in y;
    if |x| > 0 {
      assert r[0] == x[0];
    }
    if |y| > 0 {
      assert r[|x|] == y[0];
    }
    forall i, j | 0 <= i < j < |r| ensures TaggedFor(p, SpO2Tag, r[i]) && TaggedFor(p, HeartRateTag, r[j]) {
      assert i == 0 && j == 1 && |x| == 1 && |y| == 1;
      assert r[i] == x[0] && r[j] == y[0];
    }
  }

  /** The letter after the patient id and the dash tells the two vital tags
      apart, so no id carries both. */
  lemma TagLetters(p: Patient, alerts: seq<Alert>)
    ensures forall a | a in alerts :: TaggedFor(p, SpO2Tag, a) ==> |p.id| + 1 < |a.id| && a.id[|p.id| + 1] == 's'
    ensures forall a | a in alerts :: TaggedFor(p, HeartRateTag, a) ==> |p.id| + 1 < |a.id| && a.id[|p.id| + 1] == 'h'
  {
    var k := |p.id| + 1;
    forall a | a in alerts && TaggedFor(p, SpO2Tag, a) ensures |p.id| + 1 < |a.id| && a.id[k] == 's' {
      assert a.id[k] == (p.id + "-" + SpO2Tag)[k];
    }
    forall a | a in alerts && TaggedFor(p, HeartRateTag, a) ensures |p.id| + 1 < |a.id| && a.id[k] == 'h' {
      assert a.id[k] == (p.id + "-" + HeartRateTag)[k];
    }
  }

  /** Ids of a SpO2 alert and a heart-rate alert of the same patient differ
      right after the patient id. */
  lemma TagsSeparateIds(p: Patient, a: Alert, b: Alert)
    requires TaggedFor(p, SpO2Tag, a)
    requires TaggedFor(p, HeartRateTag, b)
    ensures a.id != b.id
  {
    TagLetters(p, [a, b]);
  }

  /** The most urgent alert detected is exactly the patient's severity. */
  function WorstOf(alerts: seq<Alert>): (s: Severity)
    ensures forall a | a in alerts :: Rank(Escalation(a.alertType)) <= Rank(s)
    ensures s != Severity.Normal ==> exists a | a in alerts :: Escalation(a.alertType) == s
  {
    if |alerts| == 0 then Severity.Normal
    else Worse(Escalation(alerts[0].alertType), WorstOf(alerts[1..]))
  }

  lemma DetectionMatchesSeverity(p: Patient, now: nat)
    ensures WorstOf(DetectAnomalies(p, now)) == GetAnomalySeverity(p)
  {
    var r := DetectAnomalies(p, now);
    var s := GetAnomalySeverity(p);
    var w := WorstOf(r);
    assert forall a | a in r :: Escalation(a.alertType) == SpO2Severity(p.spO2.value)
                                || Escalation(a.alertType) == HeartRateSeverity(p.heartRate.value);
    if s != Severity.Normal {
      var want := if s == SpO2Severity(p.spO2.value)
                  then AlertFor(p, SpO2Tag, s, now)[0] else AlertFor(p, HeartRateTag, s, now)[0];
      assert want in r;
    }
  }
}

=== FILE: alerts_panel.dfy ===
/** The alerts side panel of the single-patient monitor page: a count badge
    and the alerts newest first, or a placeholder. */
module AlertsPanel {
  import opened PatientTypes
  import Sorting
  import MonitorPage

  /** Newest first: the key orders by timestamp descending only. */
  function TimeKey(a: MonitorPage.PageAlert): Sorting.Key {
    (0, -a.timestamp)
  }

  /** `[...alerts].sort((a, b) => b.timestamp - a.timestamp)`: a sorted copy;
      the caller's list is left alone. */
  function NewestFirst(alerts: seq<MonitorPage.PageAlert>): (r: seq<MonitorPage.PageAlert>)
    ensures multiset(r) == multiset(alerts)
    ensures |r| == |alerts|
    ensures forall i, j :: 0 <= i < j < |r| ==> r[i].timestamp >= r[j].timestamp
  {
    var r := Sorting.SortBy(alerts, TimeKey);
    assert forall i, j :: 0 <= i < j < |r| ==> Sorting.KeyLe(TimeKey(r[i]), TimeKey(r[j]));
    r
  }

  datatype Body = Placeholder | Items(items: seq<MonitorPage.PageAlert>)

  datatype PanelView = PanelView(count: nat, body: Body)

  /** The panel for an optional list, which defaults to empty. */
  function Render(alerts: Option<seq<MonitorPage.PageAlert>>): (v: PanelView)
    ensures alerts.None? ==> v == PanelView(0, Placeholder)
    ensures alerts.Some? ==> v.count == |alerts.value|
    ensures v.body.Placeholder? <==> alerts.None? || |alerts.value| == 0
    ensures v.body.Items? ==> alerts.Some? && multiset(v.body.items) == multiset(alerts.value)
    ensures v.body.Items? ==> v.body.items == NewestFirst(alerts.value)
    ensures v.body.Items? ==>
      forall i, j :: 0 <= i < j < |v.body.items| ==> v.body.items[i].timestamp >= v.body.items[j].timestamp
  {
    var list := if alerts.Some? then alerts.value else [];
    var sorted := NewestFirst(list);
    PanelView(|list|, if |sorted| == 0 then Placeholder else Items(sorted))
  }

  /** No alert is newer than the one heading the list. */
  lemma NewestHeadsList(alerts: seq<MonitorPage.PageAlert>, i: nat)
    requires i < |alerts|
    ensures |NewestFirst(alerts)| > 0 && NewestFirst(alerts)[0].timestamp >= alerts[i].timestamp
  {
    var r := NewestFirst(alerts);
    assert alerts[i] in multiset(r);
    var j :| 0 <= j < |r| && r[j] == alerts[i];
  }
}

=== FILE: demo_page.dfy ===
/** The demonstration page: two trend buffers of at most 20 whole-number
    samples, filled by `randomIn` draws every tick. Samples are JavaScript
    numbers, so they are reals that happen to be whole. */
module DemoPage {
  import opened Numbers
  import Fifo
  import MonitorPage

  const MaxPoints: nat := 20
  const InitialPoints: nat := 12

  /** `randomIn(min, max)`: a draw scaled to [min, max] and rounded. */
  function RandomIn(min: int, max: int, r: real): (v: real)
    ensures v == v.Floor as real
    ensures min <= max && IsDraw(r) ==> min as real <= v <= max as real
  {
    var x := min as real + r * (max - min) as real;
    ProductNonNegative(r, (max - min) as real);
    ProductNonNegative(1.0 - r, (max - min) as real);
    var n := Round(x);
    assert min <= max && IsDraw(r) ==> min <= n <= max;
    n as real
  }

  /** The state update of one buffer: append, then shift while too long. */
  method AppendCapped(prev: seq<real>, v: real) returns (next: seq<real>)
    ensures next == Fifo.LastN(prev + [v], MaxPoints)
    ensures |next| <= MaxPoints
    ensures |next| > 0 && next[|next| - 1] == v
  {
    next := prev + [v];
    ghost var full := next;
    while |next| > MaxPoints
      invariant next == full[|full| - |next|..]
      invariant |next| >= MaxPoints || next == full
      decreases |next|
    {
      next := next[1..];
    }
  }

  /** The buffer update in functional form, as the tick applies it. */
  function Append(prev: seq<real>, v: real): (next: seq<real>)
    ensures |next| <= MaxPoints
    ensures |next| > 0 && next[|next| - 1] == v
    ensures |prev| >= MaxPoints ==> |next| == MaxPoints
    ensures |prev| < MaxPoints ==> next == prev + [v]
  {
    Fifo.LastN(prev + [v], MaxPoints)
  }

  datatype Buffers = Buffers(hr: seq<real>, spo2: seq<real>)

  /** The initial buffers: 12 samples in [70, 85] and [95, 99]. */
  function Initial(hrDraws: seq<real>, spo2Draws: seq<real>): (b: Buffers)
    requires |hrDraws| == InitialPoints && |spo2Draws| == InitialPoints
    ensures |b.hr| == InitialPoints && |b.spo2| == InitialPoints
    ensures AllDraws(hrDraws) ==> AllIn(b.hr, 70.0, 85.0)
    ensures AllDraws(spo2Draws) ==> AllIn(b.spo2, 95.0, 99.0)
  {
    Buffers(seq(InitialPoints, i requires 0 <= i < InitialPoints => RandomIn(70, 85, hrDraws[i])),
            seq(InitialPoints, i requires 0 <= i < InitialPoints => RandomIn(95, 99, spo2Draws[i])))
  }

  /** One timer tick: each buffer keeps its latest 20 samples once a new
      sample is appended, a heart rate in [60, 120] and a SpO2 in [90, 100]. */
  function Tick(b: Buffers, rHr: real, rSpo2: real): (t: Buffers)
    ensures |t.hr| > 0 && t.hr == Fifo.LastN(b.hr + [t.hr[|t.hr| - 1]], MaxPoints)
    ensures |t.spo2| > 0 && t.spo2 == Fifo.LastN(b.spo2 + [t.spo2[|t.spo2| - 1]], MaxPoints)
    ensures IsDraw(rHr) ==> 60.0 <= t.hr[|t.hr| - 1] <= 120.0
    ensures IsDraw(rSpo2) ==> 90.0 <= t.spo2[|t.spo2| - 1] <= 100.0
  {
    Buffers(Append(b.hr, RandomIn(60, 120, rHr)), Append(b.spo2, RandomIn(90, 100, rSpo2)))
  }

  /** Between 12 and 20 samples per buffer, each inside the chart's y-range. */
  predicate BuffersWf(b: Buffers) {
    InitialPoints <= |b.hr| <= MaxPoints && InitialPoints <= |b.spo2| <= MaxPoints
    && AllIn(b.hr, 60.0, 120.0) && AllIn(b.spo2, 90.0, 100.0)
  }

  lemma InitialWf(hrDraws: seq<real>, spo2Draws: seq<real>)
    requires |hrDraws| == InitialPoints && |spo2Draws| == InitialPoints
    requires AllDraws(hrDraws) && AllDraws(spo2Draws)
    ensures BuffersWf(Initial(hrDraws, spo2Draws))
  {
  }

  lemma TickPreservesWf(b: Buffers, rHr: real, rSpo2: real)
    requires BuffersWf(b)
    requires IsDraw(rHr) && IsDraw(rSpo2)
    ensures BuffersWf(Tick(b, rHr, rSpo2))
  {
    AppendKeepsRange(b.hr, RandomIn(60, 120, rHr), 60.0, 120.0);
    AppendKeepsRange(b.spo2, RandomIn(90, 100, rSpo2), 90.0, 100.0);
  }

  lemma AppendKeepsRange(prev: seq<real>, v: real, lo: real, hi: real)
    requires AllIn(prev, lo, hi) && lo <= v <= hi
    ensures AllIn(Append(prev, v), lo, hi)
  {
    var full := prev + [v];
    var r := Append(prev, v);
    forall i | 0 <= i < |r| ensures lo <= r[i] <= hi {
      assert r[i] == full[|full| - |r| + i];
    }
  }

  /** The two pages' buffer updates agree on every buffer of at most 20
      samples: the single shift of one and the shifting loop of the other
      both keep the 20 most recent samples. */
  lemma PushesAgree(prev: seq<real>, v: real)
    requires |prev| <= MaxPoints
    ensures MonitorPage.Push(prev, v) == Append(prev, v)
  {
    MonitorPage.PushKeepsLatest(prev, v);
  }
}

=== FILE: fifo.dfy ===
/** The reference meaning of a bounded trend buffer: the most recent samples,
    oldest first, at most `n` of them. Both dashboard pages are measured
    against it. */
module Fifo {

  /** The longest suffix of `s` that has at most `n` elements. */
  function LastN<T>(s: seq<T>, n: nat): (r: seq<T>)
    ensures |r| == if |s| <= n then |s| else n
    ensures r == s[|s| - |r|..]
  {
    if |s| <= n then s else s[|s| - n..]
  }

  /** The latest `n` of a concatenation, applied one sample at a time. */
  function AppendAll<T>(s: seq<T>, vs: seq<T>, n: nat): seq<T>
    decreases |vs|
  {
    if |vs| == 0 then s else AppendAll(LastN(s + [vs[0]], n), vs[1..], n)
  }

  /** Appending samples one by one into a buffer capped at `n` leaves exactly
      the `n` most recent samples, in arrival order. */
  lemma {:induction false} AppendAllKeepsLatest<T>(s: seq<T>, vs: seq<T>, n: nat)
    requires 0 < n
    requires |s| <= n
    ensures AppendAll(s, vs, n) == LastN(s + vs, n)
    decreases |vs|
  {
    if |vs| > 0 {
      var s' := LastN(s + [vs[0]], n);
      AppendAllKeepsLatest(s', vs[1..], n);
      assert s + vs == (s + [vs[0]]) + vs[1..];
      LastNConcat(s + [vs[0]], vs[1..], n);
    } else {
      assert s + vs == s;
    }
  }

  /** Truncating before further appends does not change the final window. */
  lemma {:induction false} LastNConcat<T>(s: seq<T>, vs: seq<T>, n: nat)
    ensures LastN(LastN(s, n) + vs, n) == LastN(s + vs, n)
  {
    var t := LastN(s, n);
    var full := s + vs;
    if |s| > n {
      assert t + vs == full[|s| - n..];
    } else {
      assert t == s;
    }
  }
}

=== FILE: gauge.dfy ===
/** The semicircular gauge: its status against two thresholds, the status
    colour, and the two slices of the arc. The percentage is a JavaScript
    number, so a gauge whose range is empty divides by zero; `Num` keeps the
    infinities and NaN that produces. */
module GaugeView {
  import PatientTypes

  /** A JavaScript number as far as the gauge needs one. */
  datatype Num = Fin(v: real) | PosInf | NegInf | NaN

  datatype Status = Normal | Warning | Critical

  datatype Thresholds = Thresholds(warning: real, critical: real)

  /** Omitted thresholds default to 90% and 80% of `max`. */
  function DefaultThresholds(max: real, warning: PatientTypes.Option<real>, critical: PatientTypes.Option<real>): (t: Thresholds)
    ensures warning.Some? ==> t.warning == warning.value
    ensures critical.Some? ==> t.critical == critical.value
    ensures warning.None? ==> t.warning == max * 0.9
    ensures critical.None? ==> t.critical == max * 0.8
    ensures warning.None? && critical.None? && 0.0 < max ==> t.critical < t.warning < max
    ensures warning.None? && critical.None? && max < 0.0 ==> max < t.warning < t.critical
  {
    Thresholds(if warning.Some? then warning.value else max * 0.9,
               if critical.Some? then critical.value else max * 0.8)
  }

  /** Below `critical` is critical, below `warning` otherwise is warning,
      anything else is normal. */
  function GaugeStatus(value: real, t: Thresholds): (s: Status)
    ensures s == Critical <==> value < t.critical
    ensures s == Warning <==> t.critical <= value < t.warning
    ensures s == Normal <==> t.critical <= value && t.warning <= value
  {
    if value < t.critical then Critical
    else if value < t.warning then Warning
    else Normal
  }

  /** With the warning threshold at or below the critical one, the warning
      band is empty. */
  lemma CollapsedWarningBand(value: real, t: Thresholds)
    requires t.warning <= t.critical
    ensures GaugeStatus(value, t) != Warning
  {
  }

  /** Raising the value never makes the status worse. */
  lemma StatusMonotone(a: real, b: real, t: Thresholds)
    requires a <= b
    ensures GaugeStatus(b, t).Normal? || GaugeStatus(a, t) == GaugeStatus(b, t) || GaugeStatus(a, t).Critical?
  {
  }

  /** A CSS colour `#rrggbb` in lower-case hex. */
  predicate HexColour(c: string) {
    |c| == 7 && c[0] == '#' && forall i :: 1 <= i < 7 ==> '0' <= c[i] <= '9' || 'a' <= c[i] <= 'f'
  }

  /** Green for normal, amber for warning, red for critical. */
  function StatusColour(s: Status): (c: string)
    ensures HexColour(c)
    ensures s.Critical? <==> c == "#ef4444"
    ensures s.Warning? <==> c == "#f59e0b"
    ensures s.Normal? <==> c == "#10b981"
  {
    match s
    case Normal => "#10b981"
    case Warning => "#f59e0b"
    case Critical => "#ef4444"
  }

  lemma ColoursDistinct(s: Status, u: Status)
    requires s != u
    ensures StatusColour(s) != StatusColour(u)
  {
    assert StatusColour(s)[1] != StatusColour(u)[1];
  }

  /** IEEE division of finite numbers; `b == 0` is the `+0` that `max - min`
      yields when the two are equal. */
  function Divide(a: real, b: real): (q: Num)
    ensures b != 0.0 ==> q == Fin(a / b)
    ensures b == 0.0 ==> (q == NaN <==> a == 0.0)
    ensures b == 0.0 ==> (q == PosInf <==> 0.0 < a) && (q == NegInf <==> a < 0.0)
  {
    if b != 0.0 then Fin(a / b)
    else if a > 0.0 then PosInf
    else if a < 0.0 then NegInf
    else NaN
  }

  function Scale(n: Num, k: real): Num
    requires 0.0 < k
  {
    match n
    case Fin(v) => Fin(v * k)
    case _ => n
  }

  /** `Math.min(n, c)`: NaN wins; an infinity gives way to `c` or wins. */
  function MinWith(n: Num, c: real): Num {
    match n
    case Fin(v) => Fin(if v <= c then v else c)
    case PosInf => Fin(c)
    case NegInf => NegInf
    case NaN => NaN
  }

  /** `Math.max(0, n)`. */
  function MaxZero(n: Num): Num {
    match n
    case Fin(v) => Fin(if v >= 0.0 then v else 0.0)
    case PosInf => PosInf
    case NegInf => Fin(0.0)
    case NaN => NaN
  }

  /** `c - n`. */
  function SubtractFrom(c: real, n: Num): Num {
    match n
    case Fin(v) => Fin(c - v)
    case PosInf => NegInf
    case NegInf => PosInf
    case NaN => NaN
  }

  /** How far `value` lies along `[min, max]`, in percent. */
  function Percentage(value: real, min: real, max: real): (p: Num)
    ensures min != max ==> p == Fin((value - min) / (max - min) * 100.0)
    ensures min == max ==> (p == NaN <==> value == min)
    ensures min == max ==> (p.Fin? <==> false)
  {
    Scale(Divide(value - min, max - min), 100.0)
  }

  /** The arc's coloured slice: the percentage cut to [0, 100]. */
  function Used(p: Num): (u: Num)
    ensures p != NaN ==> u.Fin? && 0.0 <= u.v <= 100.0
    ensures p == NaN ==> u == NaN
    ensures p.Fin? && 0.0 <= p.v <= 100.0 ==> u == p
  {
    MaxZero(MinWith(p, 100.0))
  }

  /** The arc's grey slice: what is left of 100 once the percentage is cut
      at 100 (but not at 0). */
  function Remaining(p: Num): (g: Num)
    ensures p.Fin? ==> g.Fin? && 0.0 <= g.v
    ensures p == PosInf ==> g == Fin(0.0)
    ensures p == NegInf ==> g == PosInf
    ensures p == NaN ==> g == NaN
  {
    MaxZero(SubtractFrom(100.0, MinWith(p, 100.0)))
  }

  /** Whenever the percentage is not negative (infinity included), the two
      slices make up the whole arc. */
  lemma SlicesFillArc(p: Num)
    ensures (p.Fin? && 0.0 <= p.v) || p == PosInf ==>
      Used(p).Fin? && Remaining(p).Fin? && Used(p).v + Remaining(p).v == 100.0
  {
  }

  /** From `min` upwards on a proper range the percentage is finite and not negative. */
  lemma PercentageFromMin(value: real, min: real, max: real)
    ensures min < max && min <= value ==> Percentage(value, min, max).Fin? && 0.0 <= Percentage(value, min, max).v
  {
    if min < max && min <= value {
      assert 0.0 <= (value - min) / (max - min);
    }
  }

  /** A value below `min` leaves the coloured slice empty and makes the grey
      slice longer than the arc. */
  lemma BelowMinOverfills(value: real, min: real, max: real)
    requires min < max && value < min
    ensures Used(Percentage(value, min, max)) == Fin(0.0)
    ensures Remaining(Percentage(value, min, max)).Fin? && Remaining(Percentage(value, min, max)).v > 100.0
  {
    var d := max - min;
    assert (value - min) / d < 0.0;
  }

  /** On a proper range, `min` reads 0% and `max` reads 100%, and values in
      between fill the arc in proportion. */
  lemma PercentageEndpoints(value: real, min: real, max: real)
    requires min < max
    ensures Percentage(min, min, max) == Fin(0.0)
    ensures Percentage(max, min, max) == Fin(100.0)
    ensures min <= value <= max ==> Used(Percentage(value, min, max)) == Percentage(value, min, max)
  {
    PercentageAtEnds(min, max);
    PercentageKeptByArc(value, min, max);
  }

  lemma PercentageAtEnds(min: real, max: real)
    requires min < max
    ensures Percentage(min, min, max) == Fin(0.0)
    ensures Percentage(max, min, max) == Fin(100.0)
  {
    PercentageAt(min, min, max);
    PercentageAt(max, min, max);
  }

  /** A value within the range needs no cutting: the coloured slice is the percentage. */
  lemma PercentageKeptByArc(value: real, min: real, max: real)
    requires min < max
    ensures min <= value <= max ==> Used(Percentage(value, min, max)) == Percentage(value, min, max)
  {
    PercentageAt(value, min, max);
  }

  /** The percentage of one value on a proper range, as a finite number. */
  lemma PercentageAt(value: real, min: real, max: real)
    requires min < max
    ensures var x := (value - min) / (max - min) * 100.0;
      Percentage(value, min, max) == Fin(x)
      && (value == min ==> x == 0.0) && (value == max ==> x == 100.0)
      && (min <= value <= max ==> 0.0 <= x <= 100.0)
  {
    PercentInRange(value - min, max - min);
  }

  /** `x` out of `d` as a percentage, for `0 <= x <= d`. */
  lemma PercentInRange(x: real, d: real)
    requires 0.0 < d
    ensures 0.0 <= x <= d ==> 0.0 <= x / d * 100.0 <= 100.0
    ensures x == 0.0 ==> x / d * 100.0 == 0.0
    ensures x == d ==> x / d * 100.0 == 100.0
  {
    if 0.0 <= x <= d {
      assert 0.0 <= x / d <= 1.0;
    }
  }

  /** What the gauge shows. */
  datatype GaugeModel = GaugeModel(status: Status, colour: string, used: Num, remaining: Num)

  function Gauge(value: real, min: real, max: real, warning: PatientTypes.Option<real>, critical: PatientTypes.Option<real>): (g: GaugeModel)
    ensures g.colour == StatusColour(g.status)
    ensures g.status == GaugeStatus(value, DefaultThresholds(max, warning, critical))
    ensures min < max && min <= value ==> g.used.Fin? && g.remaining.Fin? && g.used.v + g.remaining.v == 100.0
    ensures min == max ==> (g.used == NaN <==> value == min)
  {
    var status := GaugeStatus(value, DefaultThresholds(max, warning, critical));
    var p := Percentage(value, min, max);
    PercentageFromMin(value, min, max);
    SlicesFillArc(p);
    GaugeModel(status, StatusColour(status), Used(p), Remaining(p))
  }
}

=== FILE: mock_data.dfy ===
/** The mock patient generators. Every `Math.random()` call is a draw passed
    in by the caller, and `Date.now()` is the parameter `now`. */
module MockData {
  import opened PatientTypes
  import opened Numbers
  import Text
  import AlertUtils

  const PatientNames: seq<string> := [
    "John Anderson", "Sarah Mitchell", "Robert Chen", "Emily Rodriguez",
    "Michael Thompson", "Lisa Johnson", "David Brown", "Jessica Williams"
  ]

  const HistoryInterval: int := 5 * 60 * 1000

  /** A pair of vitals before it is stored in a patient record. */
  datatype Vitals = Vitals(spO2: real, heartRate: real)

  /** `generateVitalsWithVariation`: SpO2 moved by up to 1 and heart rate by
      up to 5 either way, each clamped to its safety band. */
  function GenerateVitalsWithVariation(baseSpO2: real, baseHR: real, rSpO2: real, rHR: real): (v: Vitals)
    ensures 85.0 <= v.spO2 <= 100.0
    ensures 40.0 <= v.heartRate <= 150.0
    ensures IsDraw(rSpO2) ==> Abs(v.spO2 - baseSpO2) <= 1.0 || (v.spO2 == 85.0 || v.spO2 == 100.0)
    ensures IsDraw(rHR) ==> Abs(v.heartRate - baseHR) <= 5.0 || (v.heartRate == 40.0 || v.heartRate == 150.0)
  {
    var spO2Variation := (rSpO2 - 0.5) * 2.0;
    var hrVariation := (rHR - 0.5) * 10.0;
    Vitals(Clamp(85.0, 100.0, baseSpO2 + spO2Variation), Clamp(40.0, 150.0, baseHR + hrVariation))
  }

  /** Inside the bands the variation leaves a value within its step of where
      it started, so the bands are the only thing that can stop a drift. */
  lemma VariationWithinStep(baseSpO2: real, baseHR: real, rSpO2: real, rHR: real)
    requires IsDraw(rSpO2) && IsDraw(rHR)
    requires 85.0 <= baseSpO2 <= 100.0 && 40.0 <= baseHR <= 150.0
    ensures Abs(GenerateVitalsWithVariation(baseSpO2, baseHR, rSpO2, rHR).spO2 - baseSpO2) <= 1.0
    ensures Abs(GenerateVitalsWithVariation(baseSpO2, baseHR, rSpO2, rHR).heartRate - baseHR) <= 5.0
  {
    ClampNonExpansive(85.0, 100.0, baseSpO2 + (rSpO2 - 0.5) * 2.0, baseSpO2);
    ClampNonExpansive(40.0, 150.0, baseHR + (rHR - 0.5) * 10.0, baseHR);
  }

  /** JavaScript `a || b` on numbers: `a` unless it is zero. */
  function NumberOr(a: real, b: real): real {
    if a != 0.0 then a else b
  }

  /** The draws one patient consumes, in call order: health status, the two
      base draws of its branch, the two variation draws, the age draw. */
  datatype PatientDraws = PatientDraws(health: real, base1: real, base2: real, varSpO2: real, varHR: real, age: real)

  predicate ValidDraws(d: PatientDraws) {
    IsDraw(d.health) && IsDraw(d.base1) && IsDraw(d.base2)
    && IsDraw(d.varSpO2) && IsDraw(d.varHR) && IsDraw(d.age)
  }

  /** The base vitals of the 10% critical, 20% warning and 70% normal branches.
      In the warning branch the `||` never reaches its second operand,
      because the first is at least 50. */
  function BaseVitals(d: PatientDraws): (v: Vitals)
    ensures ValidDraws(d) && d.health < 0.1 ==> 88.0 <= v.spO2 < 92.0 && 35.0 <= v.heartRate < 50.0
    ensures ValidDraws(d) && 0.1 <= d.health < 0.3 ==> 93.0 <= v.spO2 < 96.0 && 50.0 <= v.heartRate < 70.0
    ensures ValidDraws(d) && 0.3 <= d.health ==> 96.0 <= v.spO2 < 99.0 && 65.0 <= v.heartRate < 90.0
  {
    ProductNonNegative(d.base1, 4.0);
    ProductNonNegative(d.base2, 20.0);
    if d.health < 0.1 then
      Vitals(88.0 + d.base1 * 4.0, 35.0 + d.base2 * 15.0)
    else if d.health < 0.3 then
      Vitals(93.0 + d.base1 * 3.0, NumberOr(50.0 + d.base2 * 20.0, 105.0 + d.base2 * 20.0))
    else
      Vitals(96.0 + d.base1 * 3.0, 65.0 + d.base2 * 25.0)
  }

  /** `P` followed by the one-based index padded to three digits; the digits
      read back as that index. */
  function PatientId(index: nat): (id: string)
    ensures 4 <= |id| && id[0] == 'P'
    ensures Text.AllDigits(id[1..]) && Text.DecimalValue(id[1..]) == index + 1
  {
    var digits := Text.PadStart(Text.DecimalString(index + 1), 3, '0');
    Text.PaddedDecimalValue(index + 1, 3);
    assert ("P" + digits)[1..] == digits;
    "P" + digits
  }

  /** Patient ids are `P001`, `P002`, ... and no two indices share one. */
  lemma PatientIdsDistinct(i: nat, j: nat)
    ensures PatientId(i) == PatientId(j) ==> i == j
  {
    if PatientId(i) == PatientId(j) {
      assert PatientId(i)[1..] == PatientId(j)[1..];
    }
  }

  lemma FirstPatientIds()
    ensures PatientId(0) == "P001" && PatientId(7) == "P008"
  {
    SingleDigitPatientId(0);
    SingleDigitPatientId(7);
  }

  /** The first nine ids are `P00` and one digit. */
  lemma SingleDigitPatientId(index: nat)
    requires index < 9
    ensures PatientId(index) == "P00" + [Text.DigitChar(index + 1)]
  {
    var ds := Text.DecimalString(index + 1);
    assert ds == [Text.DigitChar(index + 1)];
    assert Text.Repeat('0', 2) == "00";
  }

  function MockPatient(index: nat, name: string, d: PatientDraws, now: int): (p: Patient)
    ensures p.name == name && p.id == PatientId(index)
    ensures p.room == Some(Text.DecimalString(100 + index))
    ensures 85.0 <= p.spO2.value <= 100.0 && 40.0 <= p.heartRate.value <= 150.0
    ensures p.spO2.timestamp == now && p.heartRate.timestamp == now
    ensures Vitals(p.spO2.value, p.heartRate.value)
         == GenerateVitalsWithVariation(BaseVitals(d).spO2, BaseVitals(d).heartRate, d.varSpO2, d.varHR)
    ensures p.age == 40 + Floor(d.age * 40.0)
    ensures IsDraw(d.age) ==> 40 <= p.age <= 79
  {
    var base := BaseVitals(d);
    var vitals := GenerateVitalsWithVariation(base.spO2, base.heartRate, d.varSpO2, d.varHR);
    AgeInRange(d.age);
    Patient(PatientId(index), name, 40 + Floor(d.age * 40.0), Some(Text.DecimalString(100 + index)),
            VitalSign(now, vitals.spO2), VitalSign(now, vitals.heartRate))
  }

  /** `generateMockPatients`: one patient per name, in order, with ids
      `P001`..`P008`, rooms 100..107, ages 40..79 and clamped vitals, all
      stamped `now`. */
  function GenerateMockPatients(draws: seq<PatientDraws>, now: int): (ps: seq<Patient>)
    requires |draws| == |PatientNames|
    ensures |ps| == |PatientNames|
    ensures forall i :: 0 <= i < |ps| ==>
      ps[i].name == PatientNames[i]
      && ps[i].id == PatientId(i)
      && ps[i].room == Some(Text.DecimalString(100 + i))
      && 85.0 <= ps[i].spO2.value <= 100.0
      && 40.0 <= ps[i].heartRate.value <= 150.0
      && ps[i].spO2.timestamp == now && ps[i].heartRate.timestamp == now
      && (ValidDraws(draws[i]) ==> 40 <= ps[i].age <= 79)
    ensures forall i :: 0 <= i < |ps| ==> ps[i] == MockPatient(i, PatientNames[i], draws[i], now)
    ensures forall i, j :: 0 <= i < j < |ps| ==> ps[i].id != ps[j].id && ps[i].room != ps[j].room
  {
    var ps := seq(|PatientNames|, i requires 0 <= i < |PatientNames| => MockPatient(i, PatientNames[i], draws[i], now));
    DistinctIdsAndRooms(ps);
    ps
  }

  /** A patient of the 70% normal branch starts with SpO2 in [95, 100) and
      heart rate in [60, 95): the classifier finds nothing. */
  lemma NormalBranchIsNormal(index: nat, name: string, d: PatientDraws, now: int)
    requires ValidDraws(d) && 0.3 <= d.health
    ensures AlertUtils.GetAnomalySeverity(MockPatient(index, name, d, now)) == Severity.Normal
  {
    var base := BaseVitals(d);
    VariationWithinStep(base.spO2, base.heartRate, d.varSpO2, d.varHR);
  }

  /** A patient of the 10% critical branch starts with SpO2 below 93 and heart
      rate below 55: the classifier always flags it. */
  lemma CriticalBranchIsAnomalous(index: nat, name: string, d: PatientDraws, now: int)
    requires ValidDraws(d) && d.health < 0.1
    ensures AlertUtils.IsAnomalous(MockPatient(index, name, d, now))
  {
    var base := BaseVitals(d);
    assert base.heartRate + (d.varHR - 0.5) * 10.0 < 55.0;
  }

  lemma DistinctIdsAndRooms(ps: seq<Patient>)
    requires forall i :: 0 <= i < |ps| ==> ps[i].id == PatientId(i) && ps[i].room == Some(Text.DecimalString(100 + i))
    ensures forall i, j :: 0 <= i < j < |ps| ==> ps[i].id != ps[j].id && ps[i].room != ps[j].room
  {
    forall i, j | 0 <= i < j < |ps| ensures ps[i].id != ps[j].id {
      PatientIdsDistinct(i, j);
    }
    forall i, j | 0 <= i < j < |ps| ensures ps[i].room != ps[j].room {
      Text.DecimalStringInjective(100 + i, 100 + j);
    }
  }

  lemma AgeInRange(r: real)
    ensures IsDraw(r) ==> 0 <= Floor(r * 40.0) <= 39
  {
    ProductNonNegative(r, 40.0);
    ProductNonNegative(1.0 - r, 40.0);
  }

  /** The draws of one history point: SpO2 first, then heart rate. */
  datatype HistoryDraws = HistoryDraws(spO2: real, heartRate: real)

  /** The point at position `j` of a history of `count` points. */
  function HistoryPoint(count: int, j: int, d: HistoryDraws, now: int): VitalHistory {
    var i := count - 1 - j;
    VitalHistory(now - i * HistoryInterval,
                 Clamp(85.0, 100.0, 95.0 + d.spO2 * 5.0 - 2.0),
                 Clamp(40.0, 150.0, 70.0 + d.heartRate * 20.0 - 10.0))
  }

  /** `generateMockVitalHistory(count)`: `count` points five minutes apart,
      oldest first, the last stamped `now`; none for a count below one. */
  method GenerateMockVitalHistory(count: int, draws: seq<HistoryDraws>, now: int) returns (history: seq<VitalHistory>)
    requires |draws| == if count > 0 then count else 0
    ensures |history| == |draws|
    ensures forall j :: 0 <= j < |history| ==>
      85.0 <= history[j].spO2 <= 100.0 && 40.0 <= history[j].heartRate <= 150.0
    ensures forall j :: 0 < j < |history| ==> history[j].timestamp - history[j - 1].timestamp == HistoryInterval
    ensures |history| > 0 ==> history[|history| - 1].timestamp == now
    ensures forall j :: 0 <= j < |history| ==> history[j].timestamp == now - (|history| - 1 - j) * HistoryInterval
    ensures forall j :: 0 <= j < |history| ==> history[j] == HistoryPoint(count, j, draws[j], now)
    ensures forall j :: 0 <= j < |history| && IsDraw(draws[j].spO2) && IsDraw(draws[j].heartRate) ==>
      history[j].spO2 == 93.0 + draws[j].spO2 * 5.0 && history[j].heartRate == 60.0 + draws[j].heartRate * 20.0
  {
    history := [];
    var i := count - 1;
    while i >= 0
      invariant -1 <= i < count || (i == count - 1 && count <= 0)
      invariant |history| == count - 1 - i
      invariant forall j :: 0 <= j < |history| ==> history[j] == HistoryPoint(count, j, draws[j], now)
    {
      history := history + [HistoryPoint(count, |history|, draws[|history|], now)];
      i := i - 1;
    }
    forall j | 0 <= j < |history| && IsDraw(draws[j].spO2) && IsDraw(draws[j].heartRate)
      ensures history[j].spO2 == 93.0 + draws[j].spO2 * 5.0 && history[j].heartRate == 60.0 + draws[j].heartRate * 20.0
    {
      HistoryValuesUnclamped(count, j, draws[j], now);
    }
  }

  /** Every history point lies in the SpO2 band [93, 98) and the heart-rate
      band [60, 80), so the clamps never act. */
  lemma HistoryValuesUnclamped(count: int, j: int, d: HistoryDraws, now: int)
    requires IsDraw(d.spO2) && IsDraw(d.heartRate)
    ensures 93.0 <= HistoryPoint(count, j, d, now).spO2 < 98.0
    ensures 60.0 <= HistoryPoint(count, j, d, now).heartRate < 80.0
  {
    ProductNonNegative(d.spO2, 5.0);
    ProductNonNegative(d.heartRate, 20.0);
  }

  /** One update of `simulateRealtimeUpdates`: every patient of the list
      captured when the updates started gets fresh vitals varied from its own
      captured values, stamped `now`; everything else is kept. */
  function SimulateUpdate(captured: seq<Patient>, draws: seq<Vitals>, now: int): (ps: seq<Patient>)
    requires |draws| == |captured|
    ensures |ps| == |captured|
    ensures forall i :: 0 <= i < |ps| ==>
      ps[i].id == captured[i].id && ps[i].name == captured[i].name
      && ps[i].age == captured[i].age && ps[i].room == captured[i].room
      && ps[i].spO2.timestamp == now && ps[i].heartRate.timestamp == now
      && 85.0 <= ps[i].spO2.value <= 100.0 && 40.0 <= ps[i].heartRate.value <= 150.0
  {
    seq(|captured|, i requires 0 <= i < |captured| =>
      var p := captured[i];
      var v := GenerateVitalsWithVariation(p.spO2.value, p.heartRate.value, draws[i].spO2, draws[i].heartRate);
      p.(spO2 := VitalSign(now, v.spO2), heartRate := VitalSign(now, v.heartRate)))
  }

  /** Because every update starts again from the captured list, vitals never
      wander: after any number of updates a patient's SpO2 is within 1 and
      its heart rate within 5 of the values captured at the start. */
  lemma UpdatesDoNotAccumulate(captured: seq<Patient>, draws: seq<Vitals>, now: int, i: nat)
    requires |draws| == |captured| && i < |captured|
    requires IsDraw(draws[i].spO2) && IsDraw(draws[i].heartRate)
    requires 85.0 <= captured[i].spO2.value <= 100.0 && 40.0 <= captured[i].heartRate.value <= 150.0
    ensures Abs(SimulateUpdate(captured, draws, now)[i].spO2.value - captured[i].spO2.value) <= 1.0
    ensures Abs(SimulateUpdate(captured, draws, now)[i].heartRate.value - captured[i].heartRate.value) <= 5.0
  {
    VariationWithinStep(captured[i].spO2.value, captured[i].heartRate.value, draws[i].spO2, draws[i].heartRate);
  }
}

=== FILE: monitor_page.dfy ===
/** The single-patient monitoring page: a jittered vital generator with clamps,
    20-sample trend buffers, and an alert list keyed by alert kind. Each timer
    tick is one application of `GenerateNext` followed by `Evaluate`. */
module MonitorPage {
  import opened PatientTypes
  import opened Numbers
  import Fifo
  import AlertUtils

  const TrendCapacity: nat := 20
  const AlertCapacity: nat := 12
  const InitialTrendLength: nat := 16
  const FirstAlertId: nat := 1

  /** A reading and when it was taken. */
  datatype Reading = Reading(value: real, ts: int)

  datatype Trends = Trends(hr: seq<real>, spo2: seq<real>)

  /** The page's vital state: current heart rate, SpO2 and temperature, plus
      the trend buffers behind the charts. */
  datatype Data = Data(heartRate: Reading, spO2: Reading, temp: Reading, trends: Trends)

  /** The deduplication key of an alert. */
  datatype AlertKind = HrHigh | HrLow | Spo2Low | TempHigh

  /** An alert of this page; its id `a-<n>` is represented by the counter value `n`. */
  datatype PageAlert = PageAlert(id: nat, key: AlertKind, alertType: AlertType, timestamp: int)

  /** The alert list, newest first, and the next value of the id counter. */
  datatype AlertState = AlertState(alerts: seq<PageAlert>, nextId: nat)

  /** The initial state: fixed vitals and 16 random trend samples per vital. */
  function MakeInitial(t: int, hrDraws: seq<real>, spo2Draws: seq<real>): (d: Data)
    requires |hrDraws| == InitialTrendLength && |spo2Draws| == InitialTrendLength
    ensures d.heartRate == Reading(72.0, t) && d.spO2 == Reading(97.0, t) && d.temp == Reading(36.7, t)
    ensures |d.trends.hr| == InitialTrendLength && |d.trends.spo2| == InitialTrendLength
    ensures forall i :: 0 <= i < InitialTrendLength ==>
      d.trends.hr[i] == 70.0 + hrDraws[i] * 10.0 && d.trends.spo2[i] == 95.0 + spo2Draws[i] * 3.0
    ensures TrendsWf(d.trends)
    ensures AllDraws(hrDraws) ==> AllIn(d.trends.hr, 70.0, 80.0)
    ensures AllDraws(spo2Draws) ==> AllIn(d.trends.spo2, 95.0, 98.0)
  {
    Data(Reading(72.0, t), Reading(97.0, t), Reading(36.7, t),
         Trends(seq(InitialTrendLength, i requires 0 <= i < InitialTrendLength => 70.0 + hrDraws[i] * 10.0),
                seq(InitialTrendLength, i requires 0 <= i < InitialTrendLength => 95.0 + spo2Draws[i] * 3.0)))
  }

  /** Both trend buffers hold between 16 and 20 samples. */
  predicate TrendsWf(t: Trends) {
    InitialTrendLength <= |t.hr| <= TrendCapacity && InitialTrendLength <= |t.spo2| <= TrendCapacity
  }

  /** `jitter`: a relative random move of at most 3% either way. */
  function Jitter(n: real, r: real): real {
    n + (r - 0.5) * n * 0.06
  }

  /** `push`: a copy with `v` appended and, if that overflows, the oldest
      sample dropped. */
  function Push(arr: seq<real>, v: real): (r: seq<real>)
    ensures |r| > 0 && r[|r| - 1] == v
    ensures |arr| < TrendCapacity ==> r == arr + [v]
    ensures |arr| == TrendCapacity ==> r == arr[1..] + [v]
    ensures |arr| <= TrendCapacity ==> |r| <= TrendCapacity
  {
    var copy := arr + [v];
    if |copy| > TrendCapacity then copy[1..] else copy
  }

  /** On a buffer that has not overflowed, `push` keeps exactly the 20 most recent samples. */
  lemma PushKeepsLatest(arr: seq<real>, v: real)
    requires |arr| <= TrendCapacity
    ensures Push(arr, v) == Fifo.LastN(arr + [v], TrendCapacity)
  {
  }

  /** `generateNext`: jitter heart rate and SpO2 by draws `rHr`, `rSpo2`, round
      and clamp them; `tempFixed` is the one-decimal rounding of the jittered
      temperature, which is then clamped. Both trends receive the new values. */
  function GenerateNext(prev: Data, rHr: real, rSpo2: real, tempFixed: real, now: int): (d: Data)
    ensures 40.0 <= d.heartRate.value <= 140.0
    ensures 85.0 <= d.spO2.value <= 100.0
    ensures 35.0 <= d.temp.value <= 40.5
    ensures d.heartRate.value == d.heartRate.value.Floor as real
    ensures d.spO2.value == d.spO2.value.Floor as real
    ensures d.heartRate.ts == now && d.spO2.ts == now && d.temp.ts == now
    ensures TrendsWf(prev.trends) ==> TrendsWf(d.trends)
    ensures |d.trends.hr| > 0 && d.trends.hr[|d.trends.hr| - 1] == d.heartRate.value
    ensures |d.trends.spo2| > 0 && d.trends.spo2[|d.trends.spo2| - 1] == d.spO2.value
    ensures d.trends == Trends(Push(prev.trends.hr, d.heartRate.value), Push(prev.trends.spo2, d.spO2.value))
  {
    var hr := Clamp(40.0, 140.0, Round(Jitter(prev.heartRate.value, rHr)) as real);
    var spo2 := Clamp(85.0, 100.0, Round(Jitter(prev.spO2.value, rSpo2)) as real);
    var temp := Clamp(35.0, 40.5, tempFixed);
    Data(Reading(hr, now), Reading(spo2, now), Reading(temp, now),
         Trends(Push(prev.trends.hr, hr), Push(prev.trends.spo2, spo2)))
  }

  /** A single tick moves the heart rate by at most 3% of its previous value
      plus half a beat of rounding, when the previous value lies inside the clamp band. */
  lemma HeartRateStepBounded(prev: Data, rHr: real, rSpo2: real, tempFixed: real, now: int)
    requires IsDraw(rHr)
    requires 40.0 <= prev.heartRate.value <= 140.0
    ensures Abs(GenerateNext(prev, rHr, rSpo2, tempFixed, now).heartRate.value - prev.heartRate.value)
            <= 0.03 * prev.heartRate.value + 0.5
  {
    var n := prev.heartRate.value;
    var j := Jitter(n, rHr);
    var dev := (rHr - 0.5) * n;
    ProductNonNegative(rHr, n);
    ProductNonNegative(1.0 - rHr, n);
    assert dev + 0.5 * n == rHr * n;
    assert 0.5 * n - dev == (1.0 - rHr) * n;
    assert j - n == dev * 0.06;
    var rounded := Round(j) as real;
    assert Abs(rounded - n) <= 0.03 * n + 0.5;
    ClampNonExpansive(40.0, 140.0, rounded, n);
  }

  // ---- alerts ----------------------------------------------------------

  /** The condition under which an alert of each kind is raised. */
  predicate Condition(k: AlertKind, d: Data) {
    match k
    case HrHigh => d.heartRate.value > 100.0
    case HrLow => d.heartRate.value < 60.0
    case Spo2Low => d.spO2.value < 90.0
    case TempHigh => d.temp.value > 38.0
  }

  /** The alert type each kind is raised with. */
  function KindType(k: AlertKind): AlertType {
    match k
    case HrHigh => AlertType.Critical
    case HrLow => AlertType.Warning
    case Spo2Low => AlertType.Critical
    case TempHigh => AlertType.Warning
  }

  /** The timestamp an alert of each kind carries: that of its vital's reading. */
  function KindTimestamp(k: AlertKind, d: Data): int {
    match k
    case HrHigh => d.heartRate.ts
    case HrLow => d.heartRate.ts
    case Spo2Low => d.spO2.ts
    case TempHigh => d.temp.ts
  }

  predicate HasKey(alerts: seq<PageAlert>, k: AlertKind) {
    exists i :: 0 <= i < |alerts| && alerts[i].key == k
  }

  predicate KeysDistinct(alerts: seq<PageAlert>) {
    forall i, j :: 0 <= i < j < |alerts| ==> alerts[i].key != alerts[j].key
  }

  predicate IdsDistinct(alerts: seq<PageAlert>) {
    forall i, j :: 0 <= i < j < |alerts| ==> alerts[i].id != alerts[j].id
  }

  predicate IdsIssued(alerts: seq<PageAlert>, nextId: nat) {
    forall i :: 0 <= i < |alerts| ==> FirstAlertId <= alerts[i].id < nextId
  }

  /** The alert list invariant: one alert per kind, unique ids, all ids
      already handed out by the counter. */
  predicate Wf(s: AlertState) {
    FirstAlertId <= s.nextId
    && KeysDistinct(s.alerts) && IdsDistinct(s.alerts) && IdsIssued(s.alerts, s.nextId)
    && TypesMatchKinds(s.alerts)
  }

  predicate TypesMatchKinds(alerts: seq<PageAlert>) {
    forall i :: 0 <= i < |alerts| ==> alerts[i].alertType == KindType(alerts[i].key)
  }

  const InitialAlerts: AlertState := AlertState([], FirstAlertId)

  /** The reducer also runs on the initial reading, which is in every normal
      range: the page starts without alerts and with the counter at 1. */
  lemma InitialReadingRaisesNothing(t: int, hrDraws: seq<real>, spo2Draws: seq<real>)
    requires |hrDraws| == InitialTrendLength && |spo2Draws| == InitialTrendLength
    ensures Evaluate(InitialAlerts, MakeInitial(t, hrDraws, spo2Draws)) == InitialAlerts
  {
  }

  /** Unshift a new alert of kind `k` unless one with that key is present. */
  function Raise(s: AlertState, k: AlertKind, t: AlertType, ts: int): AlertState {
    if HasKey(s.alerts, k) then s
    else AlertState([PageAlert(s.nextId, k, t, ts)] + s.alerts, s.nextId + 1)
  }

  function RaiseIf(s: AlertState, cond: bool, k: AlertKind, t: AlertType, ts: int): AlertState {
    if cond then Raise(s, k, t, ts) else s
  }

  /** The three checks of the alert reducer, before truncation: each new
      alert goes in front, is of a kind whose condition holds and that was
      absent, and takes the next id. On a well-formed list the result is
      well-formed and, one alert per kind, holds at most four alerts. */
  function Raised(s: AlertState, d: Data): (r: AlertState)
    ensures Extends(s, r, d)
    ensures Unshifted(s, r)
    ensures Wf(s) ==> Wf(r) && |r.alerts| <= 4
  {
    var hr := d.heartRate.value;
    var k1 := if hr > 100.0 then HrHigh else HrLow;
    var t1 := if hr > 100.0 then AlertType.Critical else AlertType.Warning;
    var s1 := RaiseIf(s, hr > 100.0 || hr < 60.0, k1, t1, d.heartRate.ts);
    var s2 := RaiseIf(s1, d.spO2.value < 90.0, Spo2Low, AlertType.Critical, d.spO2.ts);
    var s3 := RaiseIf(s2, d.temp.value > 38.0, TempHigh, AlertType.Warning, d.temp.ts);
    assert s.alerts[|s.alerts| - |s.alerts|..] == s.alerts;
    RaiseIfExtends(s, s, hr > 100.0 || hr < 60.0, k1, t1, d.heartRate.ts, d);
    RaiseIfExtends(s, s1, d.spO2.value < 90.0, Spo2Low, AlertType.Critical, d.spO2.ts, d);
    RaiseIfExtends(s, s2, d.temp.value > 38.0, TempHigh, AlertType.Warning, d.temp.ts, d);
    RaiseIfPreservesWf(s, hr > 100.0 || hr < 60.0, k1, t1, d.heartRate.ts);
    RaiseIfPreservesWf(s1, d.spO2.value < 90.0, Spo2Low, AlertType.Critical, d.spO2.ts);
    RaiseIfPreservesWf(s2, d.temp.value > 38.0, TempHigh, AlertType.Warning, d.temp.ts);
    DistinctKeysBound(s3.alerts);
    RaiseIfUnshifts(s, s, hr > 100.0 || hr < 60.0, k1, t1, d.heartRate.ts, -1);
    RaiseIfUnshifts(s, s1, d.spO2.value < 90.0, Spo2Low, AlertType.Critical, d.spO2.ts, CheckOrder(k1));
    RaiseIfUnshifts(s, s2, d.temp.value > 38.0, TempHigh, AlertType.Warning, d.temp.ts, CheckOrder(Spo2Low));
    s3
  }

  /** All three conditions on an empty list: the temperature alert, raised
      last, is shown first, and the heart-rate alert holds the first id. */
  lemma AllThreeRaisedInCheckOrder(d: Data)
    requires d.heartRate.value > 100.0 && d.spO2.value < 90.0 && d.temp.value > 38.0
    ensures Evaluate(InitialAlerts, d).alerts == [PageAlert(3, TempHigh, AlertType.Warning, d.temp.ts),
                                                  PageAlert(2, Spo2Low, AlertType.Critical, d.spO2.ts),
                                                  PageAlert(1, HrHigh, AlertType.Critical, d.heartRate.ts)]
    ensures Evaluate(InitialAlerts, d).nextId == 4
  {
  }

  /** The position of a kind's check in the reducer: heart rate, then SpO2,
      then temperature. */
  function CheckOrder(k: AlertKind): int {
    match k
    case HrHigh => 0
    case HrLow => 0
    case Spo2Low => 1
    case TempHigh => 2
  }

  /** `after` is `before` with new alerts unshifted one check after another:
      the alert of the latest check is first, the ids run down from the
      counter's last value, and the counter has advanced by exactly the
      number of new alerts. */
  predicate Unshifted(before: AlertState, after: AlertState) {
    |before.alerts| <= |after.alerts|
    && after.nextId == before.nextId + (|after.alerts| - |before.alerts|)
    && (forall i :: 0 <= i < |after.alerts| - |before.alerts| ==> after.alerts[i].id == after.nextId - 1 - i)
    && (forall i, j :: 0 <= i < j < |after.alerts| - |before.alerts| ==>
          CheckOrder(after.alerts[j].key) < CheckOrder(after.alerts[i].key))
  }

  /** No new alert of `after` comes from a check after `last`. */
  predicate NewUpTo(before: AlertState, after: AlertState, last: int)
    requires |before.alerts| <= |after.alerts|
  {
    forall i :: 0 <= i < |after.alerts| - |before.alerts| ==> CheckOrder(after.alerts[i].key) <= last
  }

  /** A check that runs after every check that has raised an alert so far
      keeps the new alerts in check order. */
  lemma {:induction false} RaiseIfUnshifts(s: AlertState, m: AlertState, cond: bool, k: AlertKind, t: AlertType, ts: int, last: int)
    requires Unshifted(s, m) && NewUpTo(s, m, last)
    requires last < CheckOrder(k)
    ensures Unshifted(s, RaiseIf(m, cond, k, t, ts))
    ensures NewUpTo(s, RaiseIf(m, cond, k, t, ts), CheckOrder(k))
  {
    var r := RaiseIf(m, cond, k, t, ts);
    if cond && !HasKey(m.alerts, k) {
      assert forall i :: 0 < i < |r.alerts| ==> r.alerts[i] == m.alerts[i - 1];
    }
  }

  /** `slice(0, n)`. */
  function Take(alerts: seq<PageAlert>, n: nat): (r: seq<PageAlert>)
    ensures |r| <= n && r <= alerts
    ensures |alerts| <= n ==> r == alerts
    ensures n < |alerts| ==> |r| == n
  {
    if |alerts| <= n then alerts else alerts[..n]
  }

  /** An alert added by the reducer for reading `d`: its kind's condition
      holds, it has its kind's type and timestamp, no alert of its kind was in
      the list before, and its id is fresh. */
  predicate Justified(a: PageAlert, before: AlertState, after: AlertState, d: Data) {
    Condition(a.key, d)
    && a.alertType == KindType(a.key)
    && a.timestamp == KindTimestamp(a.key, d)
    && !HasKey(before.alerts, a.key)
    && before.nextId <= a.id < after.nextId
  }

  /** `after` is `before` with justified alerts put in front: nothing of the
      old list is removed or reordered. */
  predicate Extends(before: AlertState, after: AlertState, d: Data) {
    |before.alerts| <= |after.alerts|
    && after.alerts[|after.alerts| - |before.alerts|..] == before.alerts
    && before.nextId <= after.nextId
    && forall i :: 0 <= i < |after.alerts| - |before.alerts| ==> Justified(after.alerts[i], before, after, d)
  }

  /** The alert reducer run after every new reading: new alerts are prepended,
      then the list is cut to its first 12. On a well-formed list the cut never
      removes anything, and the result is the old list behind the newly raised
      alerts. */
  function Evaluate(s: AlertState, d: Data): (r: AlertState)
    ensures |r.alerts| <= AlertCapacity
    ensures s.nextId <= r.nextId
    ensures Wf(s) ==> Wf(r) && Extends(s, r, d) && Unshifted(s, r)
  {
    var m := Raised(s, d);
    AlertState(Take(m.alerts, AlertCapacity), m.nextId)
  }

  lemma RaiseIfExtends(s: AlertState, m: AlertState, cond: bool, k: AlertKind, t: AlertType, ts: int, d: Data)
    requires Extends(s, m, d)
    requires cond ==> Condition(k, d) && t == KindType(k) && ts == KindTimestamp(k, d)
    ensures Extends(s, RaiseIf(m, cond, k, t, ts), d)
  {
    var r := RaiseIf(m, cond, k, t, ts);
    if cond && !HasKey(m.alerts, k) {
      var tail := m.alerts[|m.alerts| - |s.alerts|..];
      forall i | 0 <= i < |s.alerts| ensures s.alerts[i].key != k {
        assert s.alerts[i] == m.alerts[|m.alerts| - |s.alerts| + i];
      }
      assert r.alerts[|r.alerts| - |s.alerts|..] == tail;
      forall i | 0 <= i < |r.alerts| - |s.alerts| ensures Justified(r.alerts[i], s, r, d) {
        if i > 0 {
          assert r.alerts[i] == m.alerts[i - 1];
        }
      }
    }
  }

  lemma RaisePreservesWf(s: AlertState, k: AlertKind, t: AlertType, ts: int)
    requires Wf(s)
    requires t == KindType(k)
    ensures Wf(Raise(s, k, t, ts))
  {
    var r := Raise(s, k, t, ts);
    if !HasKey(s.alerts, k) {
      forall i, j | 0 <= i < j < |r.alerts| ensures r.alerts[i].key != r.alerts[j].key {
        assert r.alerts[j] == s.alerts[j - 1];
        if i > 0 {
          assert r.alerts[i] == s.alerts[i - 1];
        }
      }
      forall i, j | 0 <= i < j < |r.alerts| ensures r.alerts[i].id != r.alerts[j].id {
        assert r.alerts[j] == s.alerts[j - 1];
        if i > 0 {
          assert r.alerts[i] == s.alerts[i - 1];
        }
      }
      forall i | 0 <= i < |r.alerts|
        ensures FirstAlertId <= r.alerts[i].id < r.nextId
        ensures r.alerts[i].alertType == KindType(r.alerts[i].key)
      {
        if i > 0 {
          assert r.alerts[i] == s.alerts[i - 1];
        }
      }
    }
  }

  lemma RaiseIfPreservesWf(s: AlertState, cond: bool, k: AlertKind, t: AlertType, ts: int)
    requires t == KindType(k)
    ensures Wf(s) ==> Wf(RaiseIf(s, cond, k, t, ts))
  {
    if Wf(s) && cond {
      RaisePreservesWf(s, k, t, ts);
    }
  }

  /** One alert per kind means at most four alerts: the cap of 12 is never reached. */
  lemma DistinctKeysBound(alerts: seq<PageAlert>)
    ensures KeysDistinct(alerts) ==> |alerts| <= 4
  {
    if KeysDistinct(alerts) {
      var all := {HrHigh, HrLow, Spo2Low, TempHigh};
      forall i | 0 <= i < |alerts| ensures alerts[i].key in all {
        match alerts[i].key
        case HrHigh =>
        case HrLow =>
        case Spo2Low =>
        case TempHigh =>
      }
      KeysFitIn(alerts, all);
    }
  }

  lemma {:induction false} KeysFitIn(alerts: seq<PageAlert>, ks: set<AlertKind>)
    requires KeysDistinct(alerts)
    requires forall i :: 0 <= i < |alerts| ==> alerts[i].key in ks
    ensures |alerts| <= |ks|
    decreases |alerts|
  {
    if |alerts| > 0 {
      var rest := alerts[1..];
      forall i | 0 <= i < |rest| ensures rest[i].key in ks - {alerts[0].key} {
        assert rest[i] == alerts[i + 1];
      }
      KeysFitIn(rest, ks - {alerts[0].key});
    }
  }

  /** Whenever a kind's condition holds, the list holds an alert of that kind
      after the reducer, whether it was just raised or raised earlier. */
  lemma EvaluateRaisesAlert(s: AlertState, d: Data, k: AlertKind)
    requires Wf(s)
    requires Condition(k, d)
    ensures HasKey(Evaluate(s, d).alerts, k)
  {
    RaisedHasKey(s, d, k);
  }

  lemma RaiseAddsKey(s: AlertState, k: AlertKind, t: AlertType, ts: int)
    ensures HasKey(Raise(s, k, t, ts).alerts, k)
  {
    if !HasKey(s.alerts, k) {
      assert Raise(s, k, t, ts).alerts[0].key == k;
    }
  }

  lemma RaiseKeepsKeys(s: AlertState, cond: bool, k: AlertKind, t: AlertType, ts: int, k': AlertKind)
    requires HasKey(s.alerts, k')
    ensures HasKey(RaiseIf(s, cond, k, t, ts).alerts, k')
  {
    var r := RaiseIf(s, cond, k, t, ts);
    if r != s {
      var i :| 0 <= i < |s.alerts| && s.alerts[i].key == k';
      assert r.alerts[i + 1] == s.alerts[i];
    }
  }

  lemma RaisedHasKey(s: AlertState, d: Data, k: AlertKind)
    requires Condition(k, d)
    ensures HasKey(Raised(s, d).alerts, k)
  {
    var hr := d.heartRate.value;
    var k1 := if hr > 100.0 then HrHigh else HrLow;
    var t1 := if hr > 100.0 then AlertType.Critical else AlertType.Warning;
    var s1 := RaiseIf(s, hr > 100.0 || hr < 60.0, k1, t1, d.heartRate.ts);
    var s2 := RaiseIf(s1, d.spO2.value < 90.0, Spo2Low, AlertType.Critical, d.spO2.ts);
    var s3 := RaiseIf(s2, d.temp.value > 38.0, TempHigh, AlertType.Warning, d.temp.ts);
    assert s3 == Raised(s, d);
    match k
    case HrHigh | HrLow =>
      RaiseAddsKey(s, k1, t1, d.heartRate.ts);
      RaiseKeepsKeys(s1, d.spO2.value < 90.0, Spo2Low, AlertType.Critical, d.spO2.ts, k);
      RaiseKeepsKeys(s2, d.temp.value > 38.0, TempHigh, AlertType.Warning, d.temp.ts, k);
    case Spo2Low =>
      RaiseAddsKey(s1, Spo2Low, AlertType.Critical, d.spO2.ts);
      RaiseKeepsKeys(s2, d.temp.value > 38.0, TempHigh, AlertType.Warning, d.temp.ts, k);
    case TempHigh =>
      RaiseAddsKey(s2, TempHigh, AlertType.Warning, d.temp.ts);
  }

  /** A sustained anomaly yields exactly one alert of its kind, however many
      readings in a row show it. */
  lemma SustainedAnomalyHasOneAlert(s: AlertState, d: Data, k: AlertKind)
    requires Wf(s)
    requires Condition(k, d)
    ensures var r := Evaluate(s, d).alerts;
      exists i :: 0 <= i < |r| && r[i].key == k && forall j :: 0 <= j < |r| && r[j].key == k ==> j == i
  {
    EvaluateRaisesAlert(s, d, k);
  }

  /** The key, not the value, deduplicates: when an alert of a kind is already
      listed, the reducer adds none of that kind, and the listed one stays. */
  lemma EvaluateDedups(s: AlertState, d: Data, k: AlertKind)
    requires Wf(s)
    requires HasKey(s.alerts, k)
    ensures var r := Evaluate(s, d).alerts;
      forall i :: 0 <= i < |r| && r[i].key == k ==> r[i] in s.alerts
  {
    ExtendsKeepsKeyOwners(s, Evaluate(s, d), d, k);
  }

  /** Once a kind is listed, an extension adds no alert of that kind. */
  lemma ExtendsKeepsKeyOwners(s: AlertState, r: AlertState, d: Data, k: AlertKind)
    requires Extends(s, r, d)
    requires HasKey(s.alerts, k)
    ensures forall i :: 0 <= i < |r.alerts| && r.alerts[i].key == k ==> r.alerts[i] in s.alerts
  {
    var n := |r.alerts| - |s.alerts|;
    forall i | n <= i < |r.alerts| ensures r.alerts[i] in s.alerts {
      assert r.alerts[i] == r.alerts[n..][i - n];
    }
    forall i | 0 <= i < n ensures r.alerts[i].key != k {
      assert Justified(r.alerts[i], s, r, d);
    }
  }

  // ---- dismissal and overall status --------------------------------------

  /** `filter(a => a.id !== id)`. */
  function RemoveId(alerts: seq<PageAlert>, id: nat): (r: seq<PageAlert>)
    ensures forall a :: a in r <==> a in alerts && a.id != id
    ensures |r| <= |alerts|
    ensures (forall i :: 0 <= i < |alerts| ==> alerts[i].id != id) ==> r == alerts
  {
    if |alerts| == 0 then []
    else
      assert alerts == [alerts[0]] + alerts[1..];
      (if alerts[0].id != id then [alerts[0]] else []) + RemoveId(alerts[1..], id)
  }

  /** `handleDismiss`: the alerts with that id leave the list; the rest stay in order. */
  function Dismiss(s: AlertState, id: nat): (r: AlertState)
    ensures r.alerts == RemoveId(s.alerts, id)
    ensures forall a :: a in r.alerts <==> a in s.alerts && a.id != id
    ensures (forall i :: 0 <= i < |s.alerts| ==> s.alerts[i].id != id) ==> r == s
    ensures r.nextId == s.nextId
    ensures Wf(s) ==> Wf(r)
  {
    RemovePreservesWf(s.alerts, id);
    AlertState(RemoveId(s.alerts, id), s.nextId)
  }

  /** Removal distributes over concatenation, so the survivors keep their relative order. */
  lemma {:induction false} RemoveIdDistributes(a: seq<PageAlert>, b: seq<PageAlert>, id: nat)
    ensures RemoveId(a + b, id) == RemoveId(a, id) + RemoveId(b, id)
    decreases |a|
  {
    if |a| > 0 {
      assert (a + b)[1..] == a[1..] + b;
      RemoveIdDistributes(a[1..], b, id);
    } else {
      assert a + b == b;
    }
  }

  lemma RemovePreservesWf(alerts: seq<PageAlert>, id: nat)
    ensures KeysDistinct(alerts) ==> KeysDistinct(RemoveId(alerts, id))
    ensures IdsDistinct(alerts) ==> IdsDistinct(RemoveId(alerts, id))
    ensures forall n: nat :: IdsIssued(alerts, n) ==> IdsIssued(RemoveId(alerts, id), n)
    ensures TypesMatchKinds(alerts) ==> TypesMatchKinds(RemoveId(alerts, id))
  {
    var r := RemoveId(alerts, id);
    if KeysDistinct(alerts) { RemoveKeepsKeysDistinct(alerts, id); }
    if IdsDistinct(alerts) { RemoveKeepsIdsDistinct(alerts, id); }
    forall n: nat | IdsIssued(alerts, n) ensures IdsIssued(r, n) {
      forall i | 0 <= i < |r| ensures FirstAlertId <= r[i].id < n {
        assert r[i] in r;
        var m :| 0 <= m < |alerts| && alerts[m] == r[i];
      }
    }
    if TypesMatchKinds(alerts) {
      forall i | 0 <= i < |r| ensures r[i].alertType == KindType(r[i].key) {
        assert r[i] in r;
        var m :| 0 <= m < |alerts| && alerts[m] == r[i];
      }
    }
  }

  lemma {:induction false} RemoveKeepsKeysDistinct(alerts: seq<PageAlert>, id: nat)
    requires KeysDistinct(alerts)
    ensures KeysDistinct(RemoveId(alerts, id))
    decreases |alerts|
  {
    if |alerts| > 0 {
      var rest := alerts[1..];
      assert KeysDistinct(rest) by {
        forall i, j | 0 <= i < j < |rest| ensures rest[i].key != rest[j].key {
          assert rest[i] == alerts[i + 1] && rest[j] == alerts[j + 1];
        }
      }
      RemoveKeepsKeysDistinct(rest, id);
      var rr := RemoveId(rest, id);
      if alerts[0].id != id {
        var r := RemoveId(alerts, id);
        assert r == [alerts[0]] + rr;
        forall j | 0 <= j < |rr| ensures rr[j].key != alerts[0].key {
          assert rr[j] in rr;
          var m :| 0 <= m < |rest| && rest[m] == rr[j];
          assert alerts[m + 1] == rest[m];
        }
        forall i, j | 0 <= i < j < |r| ensures r[i].key != r[j].key {
          assert r[j] == rr[j - 1];
          if i > 0 { assert r[i] == rr[i - 1]; }
        }
      }
    }
  }

  lemma {:induction false} RemoveKeepsIdsDistinct(alerts: seq<PageAlert>, id: nat)
    requires IdsDistinct(alerts)
    ensures IdsDistinct(RemoveId(alerts, id))
    decreases |alerts|
  {
    if |alerts| > 0 {
      var rest := alerts[1..];
      assert IdsDistinct(rest) by {
        forall i, j | 0 <= i < j < |rest| ensures rest[i].id != rest[j].id {
          assert rest[i] == alerts[i + 1] && rest[j] == alerts[j + 1];
        }
      }
      RemoveKeepsIdsDistinct(rest, id);
      var rr := RemoveId(rest, id);
      if alerts[0].id != id {
        var r := RemoveId(alerts, id);
        assert r == [alerts[0]] + rr;
        forall j | 0 <= j < |rr| ensures rr[j].id != alerts[0].id {
          assert rr[j] in rr;
          var m :| 0 <= m < |rest| && rest[m] == rr[j];
          assert alerts[m + 1] == rest[m];
        }
        forall i, j | 0 <= i < j < |r| ensures r[i].id != r[j].id {
          assert r[j] == rr[j - 1];
          if i > 0 { assert r[i] == rr[i - 1]; }
        }
      }
    }
  }

  /** Dismissing an alert whose condition persists lets the next reading raise
      a fresh alert of that kind, with a new id. */
  lemma DismissThenReraise(s: AlertState, d: Data, i: nat)
    requires Wf(s)
    requires i < |s.alerts|
    requires Condition(s.alerts[i].key, d)
    ensures var r := Evaluate(Dismiss(s, s.alerts[i].id), d).alerts;
      exists j :: 0 <= j < |r| && r[j].key == s.alerts[i].key && r[j].id >= s.nextId
  {
    var k := s.alerts[i].key;
    var s' := Dismiss(s, s.alerts[i].id);
    DismissClearsKey(s, i);
    EvaluateRaisesAlert(s', d, k);
    FreshAlertOfMissingKind(s', Evaluate(s', d), d, k);
  }

  /** With keys distinct, dismissing an alert leaves no alert of its kind. */
  lemma DismissClearsKey(s: AlertState, i: nat)
    requires Wf(s)
    requires i < |s.alerts|
    ensures !HasKey(Dismiss(s, s.alerts[i].id).alerts, s.alerts[i].key)
    ensures Dismiss(s, s.alerts[i].id).nextId == s.nextId
  {
    var k := s.alerts[i].key;
    var s' := Dismiss(s, s.alerts[i].id);
    forall j | 0 <= j < |s'.alerts| ensures s'.alerts[j].key != k {
      assert s'.alerts[j] in s.alerts;
      var m :| 0 <= m < |s.alerts| && s.alerts[m] == s'.alerts[j];
      assert m != i;
    }
  }

  /** An alert of a kind the old list lacked was added by the extension, so
      its id is fresh. */
  lemma FreshAlertOfMissingKind(s: AlertState, r: AlertState, d: Data, k: AlertKind)
    requires Extends(s, r, d)
    requires !HasKey(s.alerts, k)
    requires HasKey(r.alerts, k)
    ensures exists j :: 0 <= j < |r.alerts| && r.alerts[j].key == k && r.alerts[j].id >= s.nextId
  {
    var j :| 0 <= j < |r.alerts| && r.alerts[j].key == k;
    var n := |r.alerts| - |s.alerts|;
    forall m | n <= m < |r.alerts| ensures r.alerts[m].key != k {
      assert r.alerts[m] == r.alerts[n..][m - n];
    }
    assert Justified(r.alerts[j], s, r, d);
  }

  /** `overallStatus`: critical if any alert is critical, else warning if any
      is a warning, else normal. It is the most urgent severity in the list. */
  function OverallStatus(alerts: seq<PageAlert>): (r: Severity)
    ensures forall i :: 0 <= i < |alerts| ==> Rank(Escalation(alerts[i].alertType)) <= Rank(r)
    ensures r != Severity.Normal ==> exists i :: 0 <= i < |alerts| && Escalation(alerts[i].alertType) == r
  {
    if exists i :: 0 <= i < |alerts| && alerts[i].alertType == AlertType.Critical then Severity.Critical
    else if exists i :: 0 <= i < |alerts| && alerts[i].alertType == AlertType.Warning then Severity.Warning
    else Severity.Normal
  }

  /** Alerts persist until dismissed, so a new reading never lowers the overall status. */
  lemma StatusNeverDropsOnEvaluate(s: AlertState, d: Data)
    requires Wf(s)
    ensures Rank(OverallStatus(s.alerts)) <= Rank(OverallStatus(Evaluate(s, d).alerts))
  {
    StatusNeverDropsOnExtend(s, Evaluate(s, d), d);
  }

  lemma StatusNeverDropsOnExtend(s: AlertState, r: AlertState, d: Data)
    requires Extends(s, r, d)
    ensures Rank(OverallStatus(s.alerts)) <= Rank(OverallStatus(r.alerts))
  {
    var st := OverallStatus(s.alerts);
    if st != Severity.Normal {
      var i :| 0 <= i < |s.alerts| && Escalation(s.alerts[i].alertType) == st;
      var n := |r.alerts| - |s.alerts|;
      assert r.alerts[n + i] == r.alerts[n..][i] == s.alerts[i];
    }
  }

  /** A SpO2 reading below 90 makes the page status critical. */
  lemma LowSpO2MakesStatusCritical(s: AlertState, d: Data)
    requires Wf(s)
    requires d.spO2.value < 90.0
    ensures OverallStatus(Evaluate(s, d).alerts) == Severity.Critical
  {
    EvaluateRaisesAlert(s, d, Spo2Low);
    var r := Evaluate(s, d).alerts;
    var i :| 0 <= i < |r| && r[i].key == Spo2Low;
    assert r[i].alertType == AlertType.Critical;
  }

  // ---- the vital cards' own classification -------------------------------

  /** The heart-rate card's kind: above 100 is critical, below 60 a warning. */
  function HeartRateCardKind(hr: real): (r: Severity)
    ensures r == Severity.Critical <==> Condition(HrHigh, ReadingData(hr, 98.0, 36.7))
    ensures r == Severity.Warning <==> Condition(HrLow, ReadingData(hr, 98.0, 36.7))
  {
    if hr > 100.0 || hr < 60.0 then (if hr > 100.0 then Severity.Critical else Severity.Warning)
    else Severity.Normal
  }

  /** The SpO2 card's kind: critical below 90 and otherwise normal; there is no warning band. */
  function SpO2CardKind(spO2: real): (r: Severity)
    ensures r != Severity.Warning
    ensures r == Severity.Critical <==> Condition(Spo2Low, ReadingData(72.0, spO2, 36.7))
  {
    if spO2 < 90.0 then Severity.Critical else Severity.Normal
  }

  function ReadingData(hr: real, spO2: real, temp: real): Data {
    Data(Reading(hr, 0), Reading(spO2, 0), Reading(temp, 0), Trends([], []))
  }

  /** The heart-rate card shows the severity of the alert the same reading raises. */
  lemma CardMatchesRaisedAlert(s: AlertState, d: Data)
    requires Wf(s)
    requires d.heartRate.value > 100.0 || d.heartRate.value < 60.0
    ensures var k := if d.heartRate.value > 100.0 then HrHigh else HrLow;
      HasKey(Evaluate(s, d).alerts, k)
      && Escalation(KindType(k)) == HeartRateCardKind(d.heartRate.value)
  {
    var k := if d.heartRate.value > 100.0 then HrHigh else HrLow;
    EvaluateRaisesAlert(s, d, k);
  }

  /** This page and the patient classifier use different bands: a
      heart rate in (100, 120] is critical here but a warning there, and a
      SpO2 in [90, 95) is normal here but a warning there. */
  lemma CardBandsDifferFromClassifier(hr: real, spO2: real)
    ensures 100.0 < hr <= 120.0 ==>
      HeartRateCardKind(hr) == Severity.Critical && AlertUtils.HeartRateSeverity(hr) == Severity.Warning
    ensures 90.0 <= spO2 < 95.0 ==>
      SpO2CardKind(spO2) == Severity.Normal && AlertUtils.SpO2Severity(spO2) == Severity.Warning
  {
  }
}

=== FILE: numbers.dfy ===
/** The JavaScript `Math` helpers the dashboard applies to vital values,
    modelled on exact reals. */
module Numbers {

  /** `Math.min(a, b)`. */
  function Min(a: real, b: real): real {
    if a <= b then a else b
  }

  /** `Math.max(a, b)`. */
  function Max(a: real, b: real): real {
    if a >= b then a else b
  }

  function Abs(x: real): real {
    if x < 0.0 then -x else x
  }

  /** `Math.max(lo, Math.min(hi, x))`, the clamp every generator applies.
      Inside the band it is the identity; outside it snaps to the nearer bound. */
  function Clamp(lo: real, hi: real, x: real): (r: real)
    ensures lo <= r
    ensures lo <= hi ==> r <= hi
    ensures lo <= x <= hi ==> r == x
    ensures r != x ==> r == lo || r == hi
    ensures lo <= hi && x < lo ==> r == lo
    ensures lo <= hi && hi < x ==> r == hi
  {
    Max(lo, Min(hi, x))
  }

  /** Clamping to a band never moves a value further from a point inside the band. */
  lemma ClampNonExpansive(lo: real, hi: real, x: real, c: real)
    requires lo <= c <= hi
    ensures Abs(Clamp(lo, hi, x) - c) <= Abs(x - c)
  {
  }

  /** `Math.round(x)`: the nearest integer, halves rounded towards +infinity. */
  function Round(x: real): (r: int)
    ensures x - 0.5 < r as real <= x + 0.5
  {
    (x + 0.5).Floor
  }

  /** `Math.floor(x)`. */
  function Floor(x: real): (r: int)
    ensures r as real <= x < r as real + 1.0
  {
    x.Floor
  }

  lemma ProductNonNegative(a: real, b: real)
    ensures 0.0 <= a && 0.0 <= b ==> 0.0 <= a * b
  {
  }

  /** A `Math.random()` draw lies in [0, 1). */
  predicate IsDraw(r: real) {
    0.0 <= r < 1.0
  }

  predicate AllDraws(rs: seq<real>) {
    forall i :: 0 <= i < |rs| ==> IsDraw(rs[i])
  }

  /** Every sample lies in [lo, hi]. */
  predicate AllIn(xs: seq<real>, lo: real, hi: real) {
    forall i :: 0 <= i < |xs| ==> lo <= xs[i] <= hi
  }
}

=== FILE: patient_card.dfy ===
/** The patient card of the multi-patient dashboard: frame and header tones
    from the anomaly severity, red or green vital text, and the two gauges
    with the ranges and thresholds the card hands them. */
module PatientCard {
  import opened PatientTypes
  import AlertUtils
  import GaugeView

  datatype Tone = Red | Amber | Green

  /** Critical is red, warning amber, normal green. */
  function ToneOf(s: Severity): Tone {
    match s
    case Critical => Red
    case Warning => Amber
    case Normal => Green
  }

  function ToneName(t: Tone): string {
    match t
    case Red => "red"
    case Amber => "amber"
    case Green => "green"
  }

  /** `getBorderColor`. */
  function BorderClass(s: Severity): (c: string)
    ensures c == "border-" + ToneName(ToneOf(s)) + "-500"
  {
    if s == Severity.Critical then "border-red-500"
    else if s == Severity.Warning then "border-amber-500"
    else "border-green-500"
  }

  /** `getHeaderBg`: the same tone as the border. */
  function HeaderClass(s: Severity): (c: string)
    ensures c == "bg-" + ToneName(ToneOf(s)) + "-50"
  {
    if s == Severity.Critical then "bg-red-50"
    else if s == Severity.Warning then "bg-amber-50"
    else "bg-green-50"
  }

  /** The frame tells the three severities apart. */
  lemma FrameDistinguishesSeverity(s: Severity, u: Severity)
    requires s != u
    ensures BorderClass(s) != BorderClass(u)
    ensures HeaderClass(s) != HeaderClass(u)
  {
    assert BorderClass(s)[7] != BorderClass(u)[7];
    assert HeaderClass(s)[3] != HeaderClass(u)[3];
  }

  /** The SpO2 figure is red below the normal minimum. */
  predicate SpO2TextRed(p: Patient)
    ensures SpO2TextRed(p) <==> AlertUtils.SpO2Severity(p.spO2.value) != Severity.Normal
  {
    p.spO2.value < NormalSpO2.min
  }

  /** The heart-rate figure is red outside the normal range. */
  predicate HeartRateTextRed(p: Patient)
    ensures HeartRateTextRed(p) <==> AlertUtils.HeartRateSeverity(p.heartRate.value) != Severity.Normal
  {
    p.heartRate.value < NormalHeartRate.min || p.heartRate.value > NormalHeartRate.max
  }

  /** Some figure is red exactly when the patient is anomalous, that is when
      the frame is not green. */
  lemma RedTextMatchesFrame(p: Patient)
    ensures AlertUtils.IsAnomalous(p) <==> SpO2TextRed(p) || HeartRateTextRed(p)
    ensures ToneOf(AlertUtils.GetAnomalySeverity(p)) == Green <==> !SpO2TextRed(p) && !HeartRateTextRed(p)
  {
  }

  /** The SpO2 gauge: range 85 to 100, warning below 95, critical below 90. */
  function SpO2Gauge(p: Patient): (g: GaugeView.GaugeModel)
    ensures 85.0 <= p.spO2.value ==> g.used.Fin? && g.remaining.Fin? && g.used.v + g.remaining.v == 100.0
  {
    GaugeView.Gauge(p.spO2.value, NormalSpO2.min - 10.0, NormalSpO2.max,
                    PatientTypes.Some(NormalSpO2.min), PatientTypes.Some(90.0))
  }

  /** The heart-rate gauge: range 40 to 150, warning and critical both below 60. */
  function HeartRateGauge(p: Patient): (g: GaugeView.GaugeModel)
    ensures 40.0 <= p.heartRate.value ==> g.used.Fin? && g.remaining.Fin? && g.used.v + g.remaining.v == 100.0
  {
    GaugeView.Gauge(p.heartRate.value, 40.0, 150.0,
                    PatientTypes.Some(NormalHeartRate.min), PatientTypes.Some(60.0))
  }

  function AsSeverity(s: GaugeView.Status): Severity {
    match s
    case Normal => Severity.Normal
    case Warning => Severity.Warning
    case Critical => Severity.Critical
  }

  /** The SpO2 gauge's thresholds are the classifier's: its status is the
      SpO2 band of the anomaly classifier. */
  lemma SpO2GaugeAgreesWithClassifier(p: Patient)
    ensures AsSeverity(SpO2Gauge(p).status) == AlertUtils.SpO2Severity(p.spO2.value)
  {
  }

  /** The heart-rate gauge has no warning band: it is critical below 60 and
      normal from 60 up, however high. */
  lemma HeartRateGaugeTwoStates(p: Patient)
    ensures HeartRateGauge(p).status != GaugeView.Status.Warning
    ensures HeartRateGauge(p).status == GaugeView.Status.Critical <==> p.heartRate.value < 60.0
  {
    GaugeView.CollapsedWarningBand(p.heartRate.value, GaugeView.Thresholds(60.0, 60.0));
  }

  /** So the heart-rate gauge and the classifier disagree in both
      directions: tachycardia above 120 is critical to the classifier but
      normal on the gauge, and a rate in [40, 60) is a warning to the
      classifier but critical on the gauge. */
  lemma HeartRateGaugeDisagreesWithClassifier(p: Patient)
    ensures p.heartRate.value > 120.0 ==>
      HeartRateGauge(p).status == GaugeView.Status.Normal
      && AlertUtils.HeartRateSeverity(p.heartRate.value) == Severity.Critical
    ensures 40.0 <= p.heartRate.value < 60.0 ==>
      HeartRateGauge(p).status == GaugeView.Status.Critical
      && AlertUtils.HeartRateSeverity(p.heartRate.value) == Severity.Warning
  {
  }
}

=== FILE: sorting.dfy ===
/** A stable sort by an integer-pair key, the ordering both alert panels ask of
    `Array.prototype.sort`: a comparator that is negative exactly when the
    first key is lexicographically smaller. */
module Sorting {

  type Key = (int, int)

  /** Lexicographic order on keys: the comparator returns a value <= 0. */
  predicate KeyLe(a: Key, b: Key) {
    a.0 < b.0 || (a.0 == b.0 && a.1 <= b.1)
  }

  ghost predicate SortedBy<T>(s: seq<T>, key: T -> Key) {
    forall i, j :: 0 <= i < j < |s| ==> KeyLe(key(s[i]), key(s[j]))
  }

  /** Places `x` before the first element whose key is not smaller, so that
      `x` precedes the elements with an equal key that came after it. */
  function Insert<T>(x: T, s: seq<T>, key: T -> Key): (r: seq<T>)
    ensures multiset(r) == multiset(s) + multiset{x}
  {
    if |s| == 0 || KeyLe(key(x), key(s[0])) then
      [x] + s
    else
      assert s == [s[0]] + s[1..];
      [s[0]] + Insert(x, s[1..], key)
  }

  /** Inserting into a sorted sequence keeps it sorted. */
  lemma {:induction false} InsertSorted<T>(x: T, s: seq<T>, key: T -> Key)
    requires SortedBy(s, key)
    ensures SortedBy(Insert(x, s, key), key)
  {
    if |s| == 0 || KeyLe(key(x), key(s[0])) {
      forall z | z in s ensures KeyLe(key(x), key(z)) {
        var k :| 0 <= k < |s| && s[k] == z;
        assert k == 0 || KeyLe(key(s[0]), key(s[k]));
      }
      ConsSorted(x, s, key);
    } else {
      var rest := Insert(x, s[1..], key);
      InsertSorted(x, s[1..], key);
      assert multiset(rest) == multiset(s[1..]) + multiset{x};
      forall y | y in rest ensures KeyLe(key(s[0]), key(y)) {
        assert y in multiset(rest);
        if y != x {
          assert y in multiset(s[1..]);
          var k :| 0 <= k < |s[1..]| && s[1..][k] == y;
          assert s[k + 1] == y;
        }
      }
      ConsSorted(s[0], rest, key);
    }
  }

  /** An element no later in key order than anything in a sorted sequence
      can go in front of it. */
  lemma ConsSorted<T>(y: T, s: seq<T>, key: T -> Key)
    requires SortedBy(s, key)
    requires forall z | z in s :: KeyLe(key(y), key(z))
    ensures SortedBy([y] + s, key)
  {
    var r := [y] + s;
    forall i, j | 0 <= i < j < |r| ensures KeyLe(key(r[i]), key(r[j])) {
      assert r[j] == s[j - 1] && r[j] in s;
      if i > 0 {
        assert r[i] == s[i - 1];
      }
    }
  }

  /** The sorted copy: a permutation of the input in key order. */
  function SortBy<T>(s: seq<T>, key: T -> Key): (r: seq<T>)
    ensures multiset(r) == multiset(s)
    ensures |r| == |s|
    ensures SortedBy(r, key)
  {
    if |s| == 0 then []
    else
      assert s == [s[0]] + s[1..];
      InsertSorted(s[0], SortBy(s[1..], key), key);
      Insert(s[0], SortBy(s[1..], key), key)
  }
}

=== FILE: text.dfy ===
/** Decimal rendering of non-negative integers and `padStart`, the only string
    building the dashboard does on numbers it later relies on (patient ids,
    room numbers, alert ids). */
module Text {

  predicate IsDigit(c: char) {
    '0' <= c <= '9'
  }

  predicate AllDigits(s: string) {
    forall i :: 0 <= i < |s| ==> IsDigit(s[i])
  }

  function DigitChar(d: nat): (c: char)
    requires d < 10
    ensures IsDigit(c)
  {
    ('0' as int + d) as char
  }

  function DigitValue(c: char): (d: nat)
    requires IsDigit(c)
    ensures d < 10
  {
    c as int - '0' as int
  }

  /** `String(n)` for a non-negative integer: its decimal digits, without a
      leading zero unless the number is zero itself. */
  function DecimalString(n: nat): (s: string)
    ensures 1 <= |s|
    ensures AllDigits(s)
    ensures s[0] == '0' ==> n == 0
    decreases n
  {
    if n < 10 then [DigitChar(n)] else DecimalString(n / 10) + [DigitChar(n % 10)]
  }

  /** The number a string of decimal digits denotes (the reading direction of
      `DecimalString`). */
  function DecimalValue(s: string): nat
    requires AllDigits(s)
  {
    if |s| == 0 then 0 else DecimalValue(s[..|s| - 1]) * 10 + DigitValue(s[|s| - 1])
  }

  /** `s.padStart(width, fill)` with a one-character fill string. */
  function PadStart(s: string, width: int, fill: char): (r: string)
    ensures |r| == if |s| >= width then |s| else width
    ensures r[|r| - |s|..] == s
    ensures forall i :: 0 <= i < |r| - |s| ==> r[i] == fill
  {
    if |s| >= width then s else Repeat(fill, width - |s|) + s
  }

  function Repeat(c: char, n: nat): (r: string)
    ensures |r| == n
    ensures forall i :: 0 <= i < n ==> r[i] == c
  {
    seq(n, _ => c)
  }

  /** Reading back what was written gives the number again. */
  lemma {:induction false} DecimalRoundTrip(n: nat)
    ensures DecimalValue(DecimalString(n)) == n
    decreases n
  {
    if n >= 10 {
      var s := DecimalString(n);
      assert s[..|s| - 1] == DecimalString(n / 10);
      DecimalRoundTrip(n / 10);
      assert DigitValue(DigitChar(n % 10)) == n % 10;
    } else {
      assert DigitValue(DigitChar(n)) == n;
    }
  }

  /** Distinct numbers have distinct decimal renderings. */
  lemma DecimalStringInjective(m: nat, n: nat)
    ensures DecimalString(m) == DecimalString(n) ==> m == n
  {
    DecimalRoundTrip(m);
    DecimalRoundTrip(n);
  }

  /** Leading zeros do not change the value of a digit string. */
  lemma {:induction false} LeadingZerosNeutral(k: nat, s: string)
    requires AllDigits(s)
    ensures AllDigits(Repeat('0', k) + s)
    ensures DecimalValue(Repeat('0', k) + s) == DecimalValue(s)
    decreases |s|
  {
    var z := Repeat('0', k);
    if |s| == 0 {
      assert z + s == z;
      ZerosAreZero(k);
    } else {
      var t := z + s;
      assert t[..|t| - 1] == z + s[..|s| - 1];
      assert t[|t| - 1] == s[|s| - 1];
      LeadingZerosNeutral(k, s[..|s| - 1]);
    }
  }

  lemma {:induction false} ZerosAreZero(k: nat)
    ensures AllDigits(Repeat('0', k))
    ensures DecimalValue(Repeat('0', k)) == 0
    decreases k
  {
    if k > 0 {
      assert Repeat('0', k)[..k - 1] == Repeat('0', k - 1);
      ZerosAreZero(k - 1);
    }
  }

  /** Zero-padding a decimal rendering keeps the number recoverable, so padded
      renderings of distinct numbers differ. */
  lemma PaddedDecimalInjective(m: nat, n: nat, width: int)
    ensures PadStart(DecimalString(m), width, '0') == PadStart(DecimalString(n), width, '0') ==> m == n
  {
    PaddedDecimalValue(m, width);
    PaddedDecimalValue(n, width);
  }

  lemma PaddedDecimalValue(n: nat, width: int)
    ensures AllDigits(PadStart(DecimalString(n), width, '0'))
    ensures DecimalValue(PadStart(DecimalString(n), width, '0')) == n
  {
    var s := DecimalString(n);
    ZeroPadded(s, width);
    DecimalRoundTrip(n);
    LeadingZerosNeutral(if |s| < width then width - |s| else 0, s);
  }

  /** Padding with `0` puts the missing number of zeros in front. */
  lemma ZeroPadded(s: string, width: int)
    ensures PadStart(s, width, '0') == Repeat('0', if |s| < width then width - |s| else 0) + s
  {
    assert Repeat('0', 0) + s == s;
  }
}

=== FILE: types.dfy ===
/** The records and threshold constants shared by the whole dashboard. */
module PatientTypes {

  datatype Option<+T> = None | Some(value: T)

  /** One reading of one vital: when it was taken and its value. */
  datatype VitalSign = VitalSign(timestamp: int, value: real)

  /** A monitored patient; `room` is optional. */
  datatype Patient = Patient(
    id: string,
    name: string,
    age: int,
    room: Option<string>,
    spO2: VitalSign,
    heartRate: VitalSign)

  /** The `type` of an alert. */
  datatype AlertType = Critical | Warning | Info

  /** The type as its string literal: `critical`, `warning` or `info`. */
  function TypeName(t: AlertType): string {
    match t
    case Critical => "critical"
    case Warning => "warning"
    case Info => "info"
  }

  /** An alert of the multi-patient dashboard. The human-readable message is
      not modelled. */
  datatype Alert = Alert(
    id: string,
    patientId: string,
    patientName: string,
    alertType: AlertType,
    timestamp: int,
    read: bool)

  /** One point of a patient's vital history. */
  datatype VitalHistory = VitalHistory(timestamp: int, spO2: real, heartRate: real)

  /** The classification the dashboard shows for a reading or a patient. */
  datatype Severity = Normal | Warning | Critical

  datatype Range = Range(min: real, max: real)

  const NormalSpO2: Range := Range(95.0, 100.0)
  const NormalHeartRate: Range := Range(60.0, 100.0)
  const CriticalSpO2: real := 90.0
  const CriticalHeartRate: Range := Range(40.0, 120.0)

  /** Severities ordered by urgency. */
  function Rank(s: Severity): nat {
    match s
    case Normal => 0
    case Warning => 1
    case Critical => 2
  }

  /** The more urgent of two severities. */
  function Worse(a: Severity, b: Severity): (r: Severity)
    ensures Rank(a) <= Rank(r) && Rank(b) <= Rank(r)
    ensures r == a || r == b
  {
    if Rank(a) >= Rank(b) then a else b
  }

  /** The severity an alert of the given type signals; an info alert signals none. */
  function Escalation(t: AlertType): (s: Severity)
    ensures s == Severity.Normal <==> t == AlertType.Info
  {
    match t
    case Critical => Severity.Critical
    case Warning => Severity.Warning
    case Info => Severity.Normal
  }

  /** The critical bands lie strictly outside the normal ranges, and every
      normal range is a proper interval: a critical reading is never normal. */
  lemma ThresholdsNest()
    ensures CriticalSpO2 < NormalSpO2.min <= NormalSpO2.max
    ensures CriticalHeartRate.min < NormalHeartRate.min <= NormalHeartRate.max < CriticalHeartRate.max
  {
  }
}

=== FILE: ward_dashboard.dfy ===
/** The multi-patient dashboard: the patient list refreshed from mock data,
    the selected patient and its header badge, and the alert list with its
    dismiss action. */
module WardDashboard {
  import opened PatientTypes
  import AlertUtils
  import MockData
  import AlertPanel

  /** `handleDismissAlert`: every alert with the given id is marked read;
      nothing else about any alert changes, and the list keeps its order. */
  function MarkRead(alerts: seq<Alert>, id: string): (r: seq<Alert>)
    ensures |r| == |alerts|
    ensures forall i :: 0 <= i < |r| ==> r[i] == alerts[i].(read := r[i].read)
    ensures forall i :: 0 <= i < |r| ==> (r[i].read <==> alerts[i].read || alerts[i].id == id)
  {
    seq(|alerts|, i requires 0 <= i < |alerts| => if alerts[i].id == id then alerts[i].(read := true) else alerts[i])
  }

  /** Dismissing twice is the same as dismissing once. */
  lemma MarkReadIdempotent(alerts: seq<Alert>, id: string)
    ensures MarkRead(MarkRead(alerts, id), id) == MarkRead(alerts, id)
  {
  }

  /** Dismissing an id no alert carries changes nothing. */
  lemma MarkReadUnknownId(alerts: seq<Alert>, id: string)
    requires forall i :: 0 <= i < |alerts| ==> alerts[i].id != id
    ensures MarkRead(alerts, id) == alerts
  {
  }

  /** Dismissals commute: the order the user clicks in does not matter. */
  lemma MarkReadCommutes(alerts: seq<Alert>, x: string, y: string)
    ensures MarkRead(MarkRead(alerts, x), y) == MarkRead(MarkRead(alerts, y), x)
  {
  }

  /** Dismissing never raises the unread count, and lowers it exactly when an
      unread alert carried the id. */
  lemma {:induction false} MarkReadLowersUnread(alerts: seq<Alert>, id: string)
    ensures AlertPanel.UnreadCount(MarkRead(alerts, id)) <= AlertPanel.UnreadCount(alerts)
    ensures AlertPanel.UnreadCount(MarkRead(alerts, id)) < AlertPanel.UnreadCount(alerts)
      <==> exists i :: 0 <= i < |alerts| && alerts[i].id == id && !alerts[i].read
    decreases |alerts|
  {
    if |alerts| > 0 {
      var r := MarkRead(alerts, id);
      assert r[1..] == MarkRead(alerts[1..], id);
      MarkReadLowersUnread(alerts[1..], id);
      if exists i :: 0 <= i < |alerts| && alerts[i].id == id && !alerts[i].read {
        var i :| 0 <= i < |alerts| && alerts[i].id == id && !alerts[i].read;
        if i > 0 {
          assert alerts[1..][i - 1] == alerts[i];
        }
      } else {
        forall i | 0 <= i < |alerts| - 1
          ensures !(alerts[1..][i].id == id && !alerts[1..][i].read)
        {
          assert alerts[1..][i] == alerts[i + 1];
        }
      }
    }
  }

  /** The first patient is selected once the list is loaded, if there is one. */
  function InitialSelection(patients: seq<Patient>): (sel: Option<string>)
    ensures sel.Some? <==> |patients| > 0
    ensures sel.Some? ==> sel.value == patients[0].id
  {
    if |patients| > 0 then Some(patients[0].id) else None
  }

  /** `patients.find(p => p.id === selectedPatientId)`: the first patient
      carrying the selected id, if any. */
  function SelectedPatient(patients: seq<Patient>, sel: Option<string>): (r: Option<Patient>)
    ensures r.Some? <==> sel.Some? && exists i :: 0 <= i < |patients| && patients[i].id == sel.value
    ensures r.Some? ==> r.value.id == sel.value
    ensures r.Some? ==>
      exists i :: 0 <= i < |patients| && patients[i] == r.value && forall j :: 0 <= j < i ==> patients[j].id != sel.value
  {
    if sel.None? || |patients| == 0 then None
    else if patients[0].id == sel.value then Some(patients[0])
    else
      var rest := SelectedPatient(patients[1..], sel);
      assert forall i :: 1 <= i < |patients| ==> patients[i] == patients[1..][i - 1];
      rest
  }

  /** The header badge: the selected patient's anomaly severity; the badge is
      not shown (and the value is `normal`) when nothing is selected. */
  function HeaderSeverity(patients: seq<Patient>, sel: Option<string>): (s: Severity)
    ensures SelectedPatient(patients, sel).None? ==> s == Normal
    ensures SelectedPatient(patients, sel).Some? ==>
      s == Worse(AlertUtils.SpO2Severity(SelectedPatient(patients, sel).value.spO2.value),
                 AlertUtils.HeartRateSeverity(SelectedPatient(patients, sel).value.heartRate.value))
  {
    match SelectedPatient(patients, sel)
    case Some(p) => AlertUtils.GetAnomalySeverity(p)
    case None => Normal
  }

  /** The dashboard's state. `captured` is the list handed to the update
      loop when it started; every refresh varies that list, not the current one. */
  datatype Ward = Ward(captured: seq<Patient>, patients: seq<Patient>, selected: Option<string>, alerts: seq<Alert>)

  /** A refresh carries the random draws and the clock; selecting and
      dismissing carry the id the user clicked. */
  datatype Event = Refresh(draws: seq<MockData.Vitals>, now: int) | Select(id: string) | Dismiss(id: string)

  /** The state after the mount effect: patients loaded, the first one
      selected, no alerts. */
  function Start(initial: seq<Patient>): (w: Ward)
    ensures w.patients == initial && w.captured == initial && w.alerts == []
    ensures w.selected == InitialSelection(initial)
  {
    Ward(initial, initial, InitialSelection(initial), [])
  }

  /** A refresh needs one pair of draws per captured patient. */
  predicate Fits(w: Ward, e: Event) {
    e.Refresh? ==> |e.draws| == |w.captured|
  }

  predicate AllFit(captured: seq<Patient>, events: seq<Event>) {
    forall i :: 0 <= i < |events| ==> (events[i].Refresh? ==> |events[i].draws| == |captured|)
  }

  function Step(w: Ward, e: Event): (r: Ward)
    requires Fits(w, e)
    ensures r.captured == w.captured
    ensures e.Refresh? ==> r.patients == MockData.SimulateUpdate(w.captured, e.draws, e.now)
    ensures !e.Refresh? ==> r.patients == w.patients
    ensures e.Select? ==> r.selected == Some(e.id)
    ensures !e.Select? ==> r.selected == w.selected
    ensures e.Dismiss? ==> r.alerts == MarkRead(w.alerts, e.id)
    ensures !e.Dismiss? ==> r.alerts == w.alerts
  {
    match e
    case Refresh(draws, now) => w.(patients := MockData.SimulateUpdate(w.captured, draws, now))
    case Select(id) => w.(selected := Some(id))
    case Dismiss(id) => w.(alerts := MarkRead(w.alerts, id))
  }

  /** The state after a sequence of events. The captured list never changes,
      and a part of the state no event addresses stays as it was. */
  function Run(w: Ward, events: seq<Event>): (r: Ward)
    requires AllFit(w.captured, events)
    ensures r.captured == w.captured
    ensures (forall i :: 0 <= i < |events| ==> !events[i].Refresh?) ==> r.patients == w.patients
    ensures (forall i :: 0 <= i < |events| ==> !events[i].Select?) ==> r.selected == w.selected
    ensures (forall i :: 0 <= i < |events| ==> !events[i].Dismiss?) ==> r.alerts == w.alerts
    decreases |events|
  {
    if |events| == 0 then w
    else
      var w' := Step(w, events[0]);
      assert forall i :: 0 <= i < |events| - 1 ==> events[1..][i] == events[i + 1];
      Run(w', events[1..])
  }

  /** Anomaly detection is switched off on this dashboard and nothing else
      adds alerts, so the alert list stays empty whatever happens. */
  lemma {:induction false} AlertsStayEmpty(initial: seq<Patient>, events: seq<Event>)
    requires AllFit(initial, events)
    ensures Run(Start(initial), events).alerts == []
  {
    RunKeepsNoAlerts(Start(initial), events);
  }

  lemma {:induction false} RunKeepsNoAlerts(w: Ward, events: seq<Event>)
    requires AllFit(w.captured, events)
    requires w.alerts == []
    ensures Run(w, events).captured == w.captured
    ensures Run(w, events).alerts == []
    decreases |events|
  {
    if |events| > 0 {
      var w' := Step(w, events[0]);
      assert AllFit(w'.captured, events[1..]) by {
        forall i | 0 <= i < |events| - 1
          ensures events[1..][i].Refresh? ==> |events[1..][i].draws| == |w'.captured|
        {
          assert events[1..][i] == events[i + 1];
        }
      }
      RunKeepsNoAlerts(w', events[1..]);
    }
  }

  /** Patients on screen always are the captured patients: same number, same
      order, same id, name, age and room; only their vitals change. */
  predicate SameIdentities(captured: seq<Patient>, patients: seq<Patient>) {
    |patients| == |captured|
    && forall i :: 0 <= i < |patients| ==>
      patients[i].id == captured[i].id && patients[i].name == captured[i].name
      && patients[i].age == captured[i].age && patients[i].room == captured[i].room
  }

  lemma {:induction false} RunKeepsIdentities(w: Ward, events: seq<Event>)
    requires AllFit(w.captured, events)
    requires SameIdentities(w.captured, w.patients)
    ensures SameIdentities(w.captured, Run(w, events).patients)
    ensures Run(w, events).captured == w.captured
    decreases |events|
  {
    if |events| > 0 {
      var w' := Step(w, events[0]);
      assert AllFit(w'.captured, events[1..]) by {
        forall i | 0 <= i < |events| - 1
          ensures events[1..][i].Refresh? ==> |events[1..][i].draws| == |w'.captured|
        {
          assert events[1..][i] == events[i + 1];
        }
      }
      RunKeepsIdentities(w', events[1..]);
    }
  }

  lemma PatientsKeepIdentities(initial: seq<Patient>, events: seq<Event>)
    requires AllFit(initial, events)
    ensures SameIdentities(initial, Run(Start(initial), events).patients)
  {
    RunKeepsIdentities(Start(initial), events);
  }

  /** Right after loading, the header shows the first patient's severity. */
  lemma StartShowsFirstPatient(initial: seq<Patient>)
    requires |initial| > 0
    ensures SelectedPatient(initial, Start(initial).selected) == Some(initial[0])
    ensures HeaderSeverity(initial, Start(initial).selected) == AlertUtils.GetAnomalySeverity(initial[0])
  {
  }

  /** Mounted on the generated ward, the page shows the eight mock patients
      and selects `P001`. */
  lemma StartOnMockPatients(draws: seq<MockData.PatientDraws>, now: int)
    requires |draws| == |MockData.PatientNames|
    ensures Start(MockData.GenerateMockPatients(draws, now)).patients == MockData.GenerateMockPatients(draws, now)
    ensures |Start(MockData.GenerateMockPatients(draws, now)).patients| == 8
    ensures Start(MockData.GenerateMockPatients(draws, now)).selected == Some("P001")
  {
    MockData.FirstPatientIds();
  }
}
